=== FILE: README.md ===
# Conversation transcript PDF and summary mailer — a Dafny model

The application keeps a chat with an assistant. It can send that conversation
away in two ways:

- **as a PDF.** The `send-pdf` route validates an e-mail address and an array
  of `{ role, content }` messages. `generatePDF` lays the messages out: a
  title, then for each message an upper-cased `ROLE: ` label followed by the
  content, word-wrapped by `splitTextIntoLines` and flowed down the pages. The
  route then mails the PDF.
- **as a summary.** The `send-summary` route reads the assistant thread,
  builds a chronological `ROLE: content` transcript and posts it back with a
  request to summarise. It runs the assistant, takes its newest message as the
  summary and mails it.

The model has six modules, one per file:

| module | file | models |
|---|---|---|
| `Text` | `text.dfy` | the JavaScript string operations the code relies on: `split` on one character, `join`, `trim` (with the JavaScript white-space set), `toUpperCase` |
| `Wrap` | `wrap.dfy` | `splitTextIntoLines`, the greedy word wrapper |
| `PdfLayout` | `layout.dfy` | the page flow of `generatePDF` as a sequence of recorded draws |
| `Json` | `json.dfy` | parsed request bodies, property access and JavaScript truthiness |
| `SendPdfRoute` | `send_pdf.dfy` | `isValidEmail`, `isValidMessages` and the decision order of the PDF route's `POST` |
| `SendSummaryRoute` | `send_summary.dfy` | transcript assembly and the guards of the summary route's `POST` |

Outside effects are inputs or outputs of the model, never performed:

- The font's text measurement is an arbitrary function `string -> real`.
- The page height is a parameter.
- The PDF library's result, the assistant service's answers and the mail
  service's success are parameters of the handlers.
- Each handler returns its HTTP answer together with the list of outside
  calls it made, in order.

The model follows the code as written. Two behaviours worth knowing:

- `generatePDF` does not reject an empty message array. It produces a
  document with only the title. The route's own check is what rejects an
  empty array.
- A message whose content has no word leaves `textLines[0]` undefined. The
  drawing call then fails. The model reports this as an error of the layout,
  and the route's 500 answer for a failed generation covers it.

## Model

| member | source | states |
|---|---|---|
| Text.Split | src/app/lib/pdf-generator.ts:97 | `split(" ")` always gives at least one piece, no piece contains the separator, and there are at most one more pieces than characters |
| Text.JoinSplit | src/app/lib/pdf-generator.ts:97 | joining the pieces of a split with the same separator gives back the original text |
| Text.SplitJoin | src/app/api/send-summary/route.ts:35-36 | joining separator-free pieces and splitting again gives back exactly those pieces |
| Text.SplitAllEmpty | src/app/lib/pdf-generator.ts:97-113 | every piece of a split is empty exactly when the text consists only of separators |
| Text.Trim | src/app/api/send-pdf/route.ts:25-26 | `trim()` gives a contiguous piece of the input with only white space removed around it; its ends are not white space; it is empty exactly when the input is all white space |
| Text.JoinEnds | src/app/api/send-summary/route.ts:52-54 | `join` starts with the first piece, and its result is empty exactly when there is no piece or a single empty one |
| Text.TrimOfPadded | src/app/api/send-summary/route.ts:29-32 | trimming removes exactly the white space padding: padding a string that has no white space at its ends, then trimming, gives the string back |
| Text.Upper | src/app/lib/pdf-generator.ts:32 | `toUpperCase()` keeps the length and maps each character to its upper-case form |
| Text.UpperIsFinal | src/app/lib/pdf-generator.ts:32 | an upper-cased role has no lower-case letter left, and upper-casing it again changes nothing |
| Wrap.SplitTextIntoLines | src/app/lib/pdf-generator.ts:91-115 | there are no more lines than words; every line is non-empty; every multi-word prefix of a line measured below the limit; a one-word line is an input word; no word is lost, added or reordered; there are no lines exactly when the text is only spaces (or empty) |
| Wrap.Place | src/app/lib/pdf-generator.ts:101-111 | with a non-empty current line, the word is appended after a space exactly when the extended line measures below the limit, and otherwise the current line is closed unchanged and the word starts the next; with an empty current line the word starts it and nothing is closed; no line is ever dropped |
| Wrap.LineBreaks | src/app/lib/pdf-generator.ts:101-113 | for any text, every line break happened because the line followed by a space, or by the next line's first word, measured at or beyond the limit |
| Wrap.WellSpacedWrap | src/app/lib/pdf-generator.ts:101-113 | for text without leading, trailing or doubled spaces, the lines joined by single spaces give the text back, and each line break happened because the next word did not fit |
| Wrap.LineWidthBound | src/app/lib/pdf-generator.ts:102-110 | a line with two or more words is strictly narrower than the limit; a wider line is always one whole word of the text |
| Wrap.LineCuts | src/app/lib/pdf-generator.ts:91-115 | for any text, each line is the words of one run of word positions joined by single spaces, starting at a non-empty word, every extension inside the run having measured below the limit; the word after a run did not fit beside its line; only empty words (from doubled, leading or trailing spaces) lie outside the runs |
| Wrap.WrappedUnique | src/app/lib/pdf-generator.ts:91-115 | that account of runs and gaps admits only one list of lines |
| Wrap.WrapExact | src/app/lib/pdf-generator.ts:91-115 | a list of lines is the wrapping result exactly when it has such an account, so the lines are pinned down for every text, spaced well or not |
| PdfLayout.Reserve | src/app/lib/pdf-generator.ts:41-44 | a page is added exactly when the block would cross the bottom margin; after that the cursor is on the next page's top line, and otherwise the cursor is unchanged with room for the block |
| PdfLayout.DrawContinuations | src/app/lib/pdf-generator.ts:66-79 | the continuation loop draws exactly the lines after the first, in order, each at the left margin in body text; with no such line the cursor does not move |
| PdfLayout.ContinuationsFlow | src/app/lib/pdf-generator.ts:66-79 | continuation lines descend one after another; the first goes where the cursor stands or at the top of the next page; the cursor ends one line below the last |
| PdfLayout.ContinuationsSpaced | src/app/lib/pdf-generator.ts:66-79 | each continuation line is drawn exactly 18 points below the previous one on the same page, unless a line there would cross the bottom margin, and exactly then on the top line of the next page; the first line likewise relative to the cursor |
| PdfLayout.ContinuationsClearBottom | src/app/lib/pdf-generator.ts:67-70 | every continuation line keeps a line of room above the bottom margin unless it is the top line of a page added for it |
| PdfLayout.ContinuationsBelowTop | src/app/lib/pdf-generator.ts:66-79 | starting at or below the top line, no continuation line and no later cursor is above it |
| PdfLayout.ContinuationsFit | src/app/lib/pdf-generator.ts:66-79 | with room for every continuation line, no page is added and the cursor ends 18 points lower per line |
| PdfLayout.MessageDraws | src/app/lib/pdf-generator.ts:46-79 | a message draws the label at the margin, then its first line beside the label on the same baseline, then every other line at the margin, one draw per wrapped line |
| PdfLayout.MessageDrawsFlow | src/app/lib/pdf-generator.ts:46-81 | a message's draws descend one after another, and the cursor ends a line plus the 10-point gap below the last of them |
| PdfLayout.MessageDrawsRoom | src/app/lib/pdf-generator.ts:46-81 | each continuation line of a message keeps a line of room above the bottom margin unless it opens a new page; nothing goes above the top line; with room for every line the message stays on its page and the cursor ends `18·n + 10` lower |
| PdfLayout.PlaceMessage | src/app/lib/pdf-generator.ts:31-63 | laying out a message fails exactly when its content has no word, so `textLines[0]` is undefined |
| PdfLayout.PlaceMessages | src/app/lib/pdf-generator.ts:31-82 | the loop fails exactly when some message has no word |
| PdfLayout.GeneratePdf | src/app/lib/pdf-generator.ts:8-86 | generation fails exactly when some message has no word; otherwise the first thing drawn is the title at the top-left of page 0 |
| PdfLayout.GeneratePdfFlow | src/app/lib/pdf-generator.ts:17-82 | the draws descend one after another, on the same page or at the top of the next page, and the last draw is on the last page |
| PdfLayout.FlowPages | src/app/lib/pdf-generator.ts:42-43 | along the draws, page indices never decrease and rise by at most one per draw |
| PdfLayout.NoOverlap | src/app/lib/pdf-generator.ts:41-81 | two draws on one page never overlap: a later draw is at least a line lower, except for the first line beside its label |
| PdfLayout.EveryPageUsed | src/app/lib/pdf-generator.ts:17-82 | no page of the document is left blank |
| PdfLayout.MessageBlock | src/app/lib/pdf-generator.ts:40-44 | a page is added before the label exactly when the label line and all wrapped lines would cross the bottom margin; when they fit, the whole message stays on the page and the cursor ends `18·n + 10` lower |
| PdfLayout.MessageColumns | src/app/lib/pdf-generator.ts:32-79 | a message is drawn as the `ROLE: ` label at the margin, then the first wrapped line after the label's width, then every later line at the margin; the lines come from wrapping to 500 minus the label's width |
| PdfLayout.MessageInsideRightEdge | src/app/lib/pdf-generator.ts:33-38 | every multi-word line of a message ends left of the text block's right edge |
| PdfLayout.DocumentText | src/app/lib/pdf-generator.ts:21-82 | the document draws the title, then for each message its label and all its wrapped lines, in order, with nothing lost or duplicated |
| PdfLayout.VerticalBounds | src/app/lib/pdf-generator.ts:17-82 | nothing is drawn above the top margin, and every line keeps a full line height above the bottom margin |
| Json.Get | src/app/api/send-pdf/route.ts:43 | destructuring yields a value exactly when the body is an object that has the key, and the value it yields is that field's value |
| Json.Truthy | src/app/api/send-summary/route.ts:14 | a value is falsy exactly when it is `null`, `false`, `0` or the empty string (arrays and objects are truthy) |
| SendPdfRoute.IsValidEmail | src/app/api/send-pdf/route.ts:11-14 | the check accepts exactly the strings the regular expression matches |
| SendPdfRoute.IsValidMessages | src/app/api/send-pdf/route.ts:17-28 | the check accepts exactly non-empty arrays whose every element is an object with string `role` and `content` that each contain a non-white-space character |
| SendPdfRoute.EmailRegex | src/app/api/send-pdf/route.ts:11-14 | the single scan for the `@` sign decides exactly the strings that `^[^\s@]+@[^\s@]+\.[^\s@]+$` matches |
| SendPdfRoute.ValidEmailShape | src/app/api/send-pdf/route.ts:12 | an accepted address has no white space, exactly one `@` with something before it, and after it a dot with something on each side |
| SendPdfRoute.ToMessages | src/app/api/send-pdf/route.ts:75 | the generator receives the validated messages in order with their role and content unchanged |
| SendPdfRoute.ValidMessagesLayOut | src/app/api/send-pdf/route.ts:17-28 | messages that pass `isValidMessages` never make the layout fail for lack of a first line: `textLines[0]` is always defined |
| SendPdfRoute.Post | src/app/api/send-pdf/route.ts:30-113 | every failure is answered 400 or 500; a 400 answer calls nothing; at most generation and one mailing are called; success exactly when both were called and mailing worked |
| SendPdfRoute.PostOutcome | src/app/api/send-pdf/route.ts:30-113 | generation runs exactly for accepted requests; any other parsed non-null body is answered 400 with no call made; mail is sent exactly when generation gave a non-empty buffer; success exactly when sending also worked |
| SendPdfRoute.PostCheckOrder | src/app/api/send-pdf/route.ts:43-71 | the checks come in a fixed order, each with its own message: missing address, then malformed address, then missing messages, then invalid messages |
| SendSummaryRoute.EntryContent | src/app/api/send-summary/route.ts:29-32 | an entry's content never starts or ends with white space |
| SendSummaryRoute.TranscriptIsChronicle | src/app/api/send-summary/route.ts:25-36 | the transcript lists the oldest message first, each newer message on its own line |
| SendSummaryRoute.ReversedLines | src/app/api/send-summary/route.ts:35-36 | newline-free entries, reversed and joined with newlines, split back into exactly the reversed entries |
| SendSummaryRoute.TranscriptLines | src/app/api/send-summary/route.ts:25-36 | when no entry contains a newline, line `k` of the transcript is the entry of the `k`-th oldest message, with one line per message |
| SendSummaryRoute.SummaryOf | src/app/api/send-summary/route.ts:52-54 | there is no summary exactly when the thread has no message; the summary is empty exactly when the newest message has no part or a single part without text |
| SendSummaryRoute.SummaryLines | src/app/api/send-summary/route.ts:51-54 | when no part's text holds a newline, the summary read line by line is the newest message's part texts in order, an absent text giving an empty line |
| SendSummaryRoute.EntryOfTextParts | src/app/api/send-summary/route.ts:26-33 | for text parts without surrounding white space, an entry is the upper-cased role, `: `, and the texts joined by spaces |
| SendSummaryRoute.PostRejects | src/app/api/send-summary/route.ts:12-19 | a body missing `threadId` or `toEmail` is answered 400 before the thread is touched |
| SendSummaryRoute.PostPrompts | src/app/api/send-summary/route.ts:22-51 | with both fields present, the handler lists the thread, posts the fixed prefix followed by the transcript, runs the assistant and lists again |
| SendSummaryRoute.PostNoSummary | src/app/api/send-summary/route.ts:52-61 | a missing or empty summary is answered 500 and nothing is mailed |
| SendSummaryRoute.Post | src/app/api/send-summary/route.ts:10-80 | every failure is answered 400 or 500; a 400 answer touches neither service; success implies mailing worked, the summary is non-empty, and the fifth call mails exactly that summary |
| SendSummaryRoute.PostOutcome | src/app/api/send-summary/route.ts:10-80 | the summary is mailed, to the requested address, exactly when both fields are present and the summary is non-empty; success, carrying the summary, exactly when mailing also worked; every other answer is 400 or 500 |

## Left out

- The PDF library: fonts, sizes, colours, serialisation and the byte buffer
  are not modelled. A draw records its page, position, text and kind (title,
  label or body), and the buffer's length is a parameter of the route.
- Text the standard font cannot encode is not modelled. This includes
  characters outside its character set and a newline inside a line. The
  library's own failures on such text are covered only through the route's
  "generation threw" input.
- The default page size is not fixed. The height is a parameter.
- Floating point: positions and widths are exact `real` numbers. The code
  keeps the cursor's `y` (`src/app/lib/pdf-generator.ts:19-81`) and the wrap
  width `maxLineWidth - width(roleLine)` (line 37) in IEEE doubles. Rounding
  is not modelled. So where an exact value lands on a boundary, a double can
  decide differently. This affects the block check (line 41), the line check
  (line 67) and the width test while wrapping (line 105).
- PdfLayout.VerticalBounds: holds only for pages at least `2·50 + 18` points
  tall. On a shorter page the first line of a fresh page is already below the
  bottom margin.
- PdfLayout.MessageInsideRightEdge: speaks only of lines with two or more
  words. The wrapper never splits a word, so a single word wider than the
  block stands on its own line past the right edge. It also assumes the font
  gives the label a non-negative width.
- Text.Upper: upper-cases ASCII letters only. The full Unicode case mapping
  of `toUpperCase`, including mappings that change the length, is not
  modelled.
- Text.IsWhitespace: strings are sequences of Unicode scalar values, while
  JavaScript strings are sequences of UTF-16 code units. A character outside
  the Basic Multilingual Plane counts once here and twice in JavaScript, and
  a lone surrogate cannot be represented at all.
- The assistant service: listing messages, creating a message and the run
  are calls into a service that is not part of this model. The run's
  instructions (`src/utils/instructions.ts`) are not part of this model
  either. The handler's inputs stand for what those calls return. A failing
  service call has no input of its own in the model. In the code it would
  end in the same 500 answer as a failed mailing.
- The mail service (`src/app/lib/email-sender.ts`) is not part of this model.
  Whether mailing worked is a parameter.
- SendSummaryRoute.Post: `src/app/lib/email-sender.ts` defines only
  `sendPDFtoEmail`, yet the summary route imports `sendSummaryToEmail`
  (`src/app/api/send-summary/route.ts:4`). As written, the summary mail step
  cannot succeed: the build fails, or the call throws and the route answers
  500. The `mailOk` parameter keeps the success path reachable in the model.
- SendSummaryRoute.Transcript: its meaning is stated by the rows for
  `TranscriptIsChronicle` and `TranscriptLines`, not by a contract of its own.
- Text.Join: its meaning is stated by `JoinEnds`, `JoinSplit` and `SplitJoin`,
  not by a contract of its own.
- SendSummaryRoute.Entry and SendSummaryRoute.Entries: their meaning is
  stated by the rows for `EntryContent`, `EntryOfTextParts`,
  `TranscriptIsChronicle` and `TranscriptLines`, not by contracts of their own.
- SendSummaryRoute.Prompt: its meaning is stated by the row for
  `PostPrompts`, not by a contract of its own.
- PdfLayout.Label, PdfLayout.WrapWidth and PdfLayout.BodyLines: their meaning
  is stated by the rows for `MessageColumns` and `DocumentText`, not by
  contracts of their own.
- Logging to the console and the UI components are not modelled.

=== FILE: json.dfy ===
/**
  Parsed JSON request bodies as the route handlers see them, with the two
  JavaScript operations the handlers apply to them: property access (which
  yields `undefined` for a missing property or a non-object) and truthiness.
*/
module Json {

  /** An optional value; `None` stands for JavaScript's `undefined`. */
  datatype Option<T> = None | Some(value: T)

  datatype Json =
    | JNull
    | JBool(b: bool)
    | JNumber(n: real)
    | JString(s: string)
    | JArray(items: seq<Json>)
    | JObject(fields: map<string, Json>)

  /** JavaScript truthiness of a parsed JSON value: `null`, `false`, `0` and
      the empty string are falsy; arrays and objects, even empty, are truthy. */
  function Truthy(v: Json): (t: bool)
    ensures t <==> v !in {JNull, JBool(false), JNumber(0.0), JString("")}
  {
    match v
    case JNull => false
    case JBool(b) => b
    case JNumber(n) => n != 0.0
    case JString(s) => s != ""
    case JArray(_) => true
    case JObject(_) => true
  }

  /** `v.key` for the keys the handlers read (none of which is a property
      every string or array has): only an object can supply it. */
  function Get(v: Json, key: string): (r: Option<Json>)
    ensures r.Some? <==> v.JObject? && key in v.fields
    ensures r.Some? ==> r.value == v.fields[key]
  {
    match v
    case JObject(fields) => if key in fields then Some(fields[key]) else None
    case _ => None
  }

  /** Truthiness of a property read, where `undefined` is falsy. */
  predicate Present(v: Option<Json>) {
    v.Some? && Truthy(v.value)
  }
}

=== FILE: layout.dfy ===
/**
  The page flow of `generatePDF`: a title on the first page, then for every
  message a role label followed by the message's wrapped lines, threaded
  through a cursor `(page, y)` that moves down the page and jumps to the top
  of a fresh page when the next block would cross the bottom margin.

  Drawing is recorded as a sequence of `Draw` records instead of calls into
  the PDF library; the font measurement is an arbitrary function and the
  page height a parameter.
*/
module PdfLayout {
  import opened Text
  import opened Wrap

  const Margin: real := 50.0
  const LineHeight: real := 18.0
  const MaxLineWidth: real := 500.0
  /** Space left below the title before the first message. */
  const TitleSpacing: real := 30.0
  /** Extra space after each message. */
  const MessageSpacing: real := 10.0
  const TitleText: string := "Conversation Transcript"

  datatype Message = Message(role: string, content: string)

  /** What a drawn string is; it fixes the size and colour it is drawn in. */
  datatype Ink = Heading | RoleLabel | Body

  /** One `page.drawText` call: the page index, the baseline position, the text. */
  datatype Draw = Draw(page: nat, x: real, y: real, text: string, ink: Ink)

  /** Current page index and vertical write position. */
  datatype Cursor = Cursor(page: nat, y: real)

  /** The draws of a stretch of layout and the cursor after them. */
  datatype Placed = Placed(end: Cursor, draws: seq<Draw>)

  /** A laid-out document: how many pages were added and everything drawn. */
  datatype Document = Document(pageCount: nat, draws: seq<Draw>)

  /** `textLines[0]` is undefined when a message's content has no word; the
      drawing library rejects a text that is not a string, so generation fails. */
  datatype LayoutError = NoFirstLine(role: string)

  datatype Result<T> = Ok(value: T) | Err(error: LayoutError)

  /** First baseline of every page. */
  function Top(height: real): real {
    height - Margin
  }

  /** The label drawn before a message: the upper-cased role, a colon, a space. */
  function Label(role: string): string {
    Upper(role) + ": "
  }

  /** The wrap width of a message: the text block less the label's width. */
  function WrapWidth(width: Measure, role: string): real {
    MaxLineWidth - width(Label(role))
  }

  /** The wrapped lines of a message. */
  function BodyLines(width: Measure, m: Message): seq<string> {
    SplitTextIntoLines(width, m.content, WrapWidth(width, m.role))
  }

  // ---------------------------------------------------------------------
  // Ordering of the draws
  // ---------------------------------------------------------------------

  /** `e` may be drawn right after `d`: a role label is followed by its first
      line on the same baseline; any other draw is followed by one at least a
      line lower on the same page, or by the top line of the next page. */
  predicate Descends(d: Draw, e: Draw, height: real) {
    if d.ink == RoleLabel then
      e.page == d.page && e.y == d.y && e.ink == Body
    else
      || (e.page == d.page && e.y <= d.y - LineHeight)
      || (e.page == d.page + 1 && e.y == Top(height))
  }

  /** Every two consecutive draws descend. */
  predicate Flow(ds: seq<Draw>, height: real) {
    forall i :: 0 <= i < |ds| - 1 ==> Descends(ds[i], ds[i + 1], height)
  }

  /** The cursor `c` stands at least a line below the draw `d` on its page. */
  predicate Follows(d: Draw, c: Cursor) {
    d.ink != RoleLabel && c.page == d.page && c.y <= d.y - LineHeight
  }

  /** `e` is drawn where the cursor `c` is, or at the top of the next page. */
  predicate At(c: Cursor, e: Draw, height: real) {
    || (e.page == c.page && e.y == c.y)
    || (e.page == c.page + 1 && e.y == Top(height))
  }

  /** The cursor one line below a draw, on its page. */
  function Below(d: Draw): Cursor {
    Cursor(d.page, d.y - LineHeight)
  }

  /** `e` is the line drawn from the cursor `c` after the one-line space
      check: on the top line of the next page exactly when a line at `c`
      would reach below the bottom margin, and at `c` otherwise. */
  predicate NextLine(c: Cursor, e: Draw, height: real) {
    if c.y - LineHeight < Margin then e.page == c.page + 1 && e.y == Top(height)
    else e.page == c.page && e.y == c.y
  }

  /** Every draw after the first is exactly one line below the one before
      it, or, exactly when that line would reach below the bottom margin, on
      the top line of the next page. */
  predicate Spaced(ds: seq<Draw>, height: real) {
    forall i :: 0 <= i < |ds| - 1 ==> NextLine(Below(ds[i]), ds[i + 1], height)
  }

  lemma FollowsAt(d: Draw, c: Cursor, e: Draw, height: real)
    requires Follows(d, c) && At(c, e, height)
    ensures Descends(d, e, height)
  {
  }

  lemma FlowAppend(a: seq<Draw>, b: seq<Draw>, height: real)
    requires Flow(a, height) && Flow(b, height)
    requires |a| > 0 && |b| > 0 ==> Descends(a[|a| - 1], b[0], height)
    ensures Flow(a + b, height)
  {
    var ab := a + b;
    forall i | 0 <= i < |ab| - 1 ensures Descends(ab[i], ab[i + 1], height) {
      if i < |a| - 1 {
        assert ab[i] == a[i] && ab[i + 1] == a[i + 1];
      } else if i == |a| - 1 {
        assert ab[i] == a[|a| - 1] && ab[i + 1] == b[0];
      } else {
        assert ab[i] == b[i - |a|] && ab[i + 1] == b[i - |a| + 1];
      }
    }
  }

  // ---------------------------------------------------------------------
  // The cursor
  // ---------------------------------------------------------------------

  /** The space check before a block of height `needed`: when the block
      would reach below the bottom margin a page is added and the cursor
      moves to its top line; otherwise nothing changes. */
  function Reserve(c: Cursor, needed: real, height: real): (r: Cursor)
    ensures r.page == c.page || r.page == c.page + 1
    ensures r.page == c.page + 1 <==> c.y - needed < Margin
    ensures r.page == c.page + 1 ==> r.y == Top(height)
    ensures r.page == c.page ==> r.y == c.y && r.y - needed >= Margin
  {
    if c.y - needed < Margin then Cursor(c.page + 1, Top(height)) else c
  }

  /** The loop over `textLines[1..]`: before each line the one-line space
      check, then the line at the left margin, then one line down. */
  function DrawContinuations(c: Cursor, lines: seq<string>, height: real): (r: Placed)
    ensures |r.draws| == |lines|
    ensures forall i :: 0 <= i < |lines| ==>
              r.draws[i].text == lines[i] && r.draws[i].x == Margin && r.draws[i].ink == Body
    ensures |lines| == 0 ==> r.end == c
    decreases |lines|
  {
    if |lines| == 0 then Placed(c, [])
    else
      var at := Reserve(c, LineHeight, height);
      var d := Draw(at.page, Margin, at.y, lines[0], Body);
      var rest := DrawContinuations(Cursor(at.page, at.y - LineHeight), lines[1..], height);
      var ds := [d] + rest.draws;
      assert forall i :: 1 <= i < |ds| ==> ds[i] == rest.draws[i - 1];
      Placed(rest.end, ds)
  }

  /** Spaced draws none of which is a role label descend. */
  lemma SpacedFlow(ds: seq<Draw>, height: real)
    requires Spaced(ds, height)
    requires forall i :: 0 <= i < |ds| ==> ds[i].ink != RoleLabel
    ensures Flow(ds, height)
  {
    forall i | 0 <= i < |ds| - 1 ensures Descends(ds[i], ds[i + 1], height) {
      assert NextLine(Below(ds[i]), ds[i + 1], height);
    }
  }

  /** After the continuation lines the cursor stands one line below the
      last of them. */
  lemma {:induction false} ContinuationsEnd(c: Cursor, lines: seq<string>, height: real)
    requires |lines| > 0
    ensures DrawContinuations(c, lines, height).end == Below(DrawContinuations(c, lines, height).draws[|lines| - 1])
    decreases |lines|
  {
    var at := Reserve(c, LineHeight, height);
    var below := Cursor(at.page, at.y - LineHeight);
    var rest := DrawContinuations(below, lines[1..], height);
    var r := DrawContinuations(c, lines, height);
    assert r.end == rest.end && r.draws[1..] == rest.draws;
    if |lines| > 1 {
      ContinuationsEnd(below, lines[1..], height);
      assert r.draws[|lines| - 1] == rest.draws[|lines| - 2];
    }
  }

  /** The continuation lines descend one after another; the first is drawn
      where the cursor stands or at the top of the next page, and the cursor
      ends one line below the last. */
  lemma ContinuationsFlow(c: Cursor, lines: seq<string>, height: real)
    ensures Flow(DrawContinuations(c, lines, height).draws, height)
    ensures |lines| > 0 ==> At(c, DrawContinuations(c, lines, height).draws[0], height)
    ensures |lines| > 0 ==>
              && Follows(DrawContinuations(c, lines, height).draws[|lines| - 1], DrawContinuations(c, lines, height).end)
              && DrawContinuations(c, lines, height).end.y == DrawContinuations(c, lines, height).draws[|lines| - 1].y - LineHeight
  {
    ContinuationsSpaced(c, lines, height);
    SpacedFlow(DrawContinuations(c, lines, height).draws, height);
    if |lines| > 0 {
      ContinuationsEnd(c, lines, height);
    }
  }

  /** A draw followed by spaced draws, the first of them where the cursor
      one line below it points, is spaced. */
  lemma {:induction false} SpacedCons(d: Draw, ds: seq<Draw>, height: real)
    requires Spaced(ds, height)
    requires |ds| > 0 ==> NextLine(Below(d), ds[0], height)
    ensures Spaced([d] + ds, height)
  {
    var all := [d] + ds;
    forall i | 0 <= i < |all| - 1 ensures NextLine(Below(all[i]), all[i + 1], height) {
      if i > 0 {
        assert all[i] == ds[i - 1] && all[i + 1] == ds[i];
      }
    }
  }

  /** Each continuation line is drawn exactly one line below the previous
      one, or on the top line of the next page exactly when it would not fit
      above the bottom margin; the first one likewise from the cursor. */
  lemma {:induction false} ContinuationsSpaced(c: Cursor, lines: seq<string>, height: real)
    ensures Spaced(DrawContinuations(c, lines, height).draws, height)
    ensures |lines| > 0 ==> NextLine(c, DrawContinuations(c, lines, height).draws[0], height)
    decreases |lines|
  {
    if |lines| > 0 {
      var at := Reserve(c, LineHeight, height);
      var d := Draw(at.page, Margin, at.y, lines[0], Body);
      var below := Cursor(at.page, at.y - LineHeight);
      ContinuationsSpaced(below, lines[1..], height);
      var rest := DrawContinuations(below, lines[1..], height);
      assert DrawContinuations(c, lines, height).draws == [d] + rest.draws;
      assert NextLine(c, d, height);
      assert Below(d) == below;
      SpacedCons(d, rest.draws, height);
    }
  }

  /** The draws of one message once its label line has a place `at`: the
      label at the left margin, the first line beside it, the remaining lines
      below through the continuation loop, then the gap after the message. */
  function MessageDraws(width: Measure, at: Cursor, roleText: string, lines: seq<string>, height: real): (r: Placed)
    requires |lines| > 0
    ensures |r.draws| == |lines| + 1
    ensures r.draws[0] == Draw(at.page, Margin, at.y, roleText, RoleLabel)
    ensures r.draws[1] == Draw(at.page, Margin + width(roleText), at.y, lines[0], Body)
    ensures forall i :: 2 <= i <= |lines| ==>
              r.draws[i].text == lines[i - 1] && r.draws[i].x == Margin && r.draws[i].ink == Body
  {
    var role := Draw(at.page, Margin, at.y, roleText, RoleLabel);
    var first := Draw(at.page, Margin + width(roleText), at.y, lines[0], Body);
    var below := Cursor(at.page, at.y - LineHeight);
    var rest := DrawContinuations(below, lines[1..], height);
    var ds := [role, first] + rest.draws;
    assert forall i :: 2 <= i < |ds| ==> ds[i] == rest.draws[i - 2];
    Placed(Cursor(rest.end.page, rest.end.y - MessageSpacing), ds)
  }

  /** One message's draws descend one after another, and the cursor ends a
      line plus the message gap below the last of them. */
  lemma MessageDrawsFlow(width: Measure, at: Cursor, roleText: string, lines: seq<string>, height: real)
    requires |lines| > 0
    ensures Flow(MessageDraws(width, at, roleText, lines, height).draws, height)
    ensures Follows(MessageDraws(width, at, roleText, lines, height).draws[|lines|], MessageDraws(width, at, roleText, lines, height).end)
    ensures MessageDraws(width, at, roleText, lines, height).end.y
            == MessageDraws(width, at, roleText, lines, height).draws[|lines|].y - LineHeight - MessageSpacing
  {
    var r := MessageDraws(width, at, roleText, lines, height);
    var role := Draw(at.page, Margin, at.y, roleText, RoleLabel);
    var first := Draw(at.page, Margin + width(roleText), at.y, lines[0], Body);
    var below := Cursor(at.page, at.y - LineHeight);
    var rest := DrawContinuations(below, lines[1..], height);
    assert r == Placed(Cursor(rest.end.page, rest.end.y - MessageSpacing), [role, first] + rest.draws);
    ContinuationsFlow(below, lines[1..], height);
    assert Flow([role, first], height);
    if |rest.draws| > 0 {
      FollowsAt(first, below, rest.draws[0], height);
      assert r.draws[|lines|] == rest.draws[|lines| - 2];
    } else {
      assert rest.end == below;
    }
    FlowAppend([role, first], rest.draws, height);
  }

  /** A draw keeps a line of room above the bottom margin, or it is on the
      top line of a page added after the cursor `c`'s page. */
  predicate ClearOfBottom(d: Draw, c: Cursor, height: real) {
    d.y - LineHeight >= Margin || (d.y == Top(height) && d.page > c.page)
  }

  /** Along spaced draws that start from the cursor `c`, no draw is on a
      page before the cursor's. */
  lemma {:induction false} SpacedPage(ds: seq<Draw>, c: Cursor, height: real, i: nat)
    requires Spaced(ds, height) && |ds| > 0 && NextLine(c, ds[0], height)
    requires i < |ds|
    ensures ds[i].page >= c.page
    decreases i
  {
    if i > 0 {
      SpacedPage(ds, c, height, i - 1);
      assert NextLine(Below(ds[i - 1]), ds[i], height);
    }
  }

  /** Spaced draws that start from the cursor `c` all keep a line of room
      above the bottom margin, unless they are the top line of a later
      page. */
  lemma SpacedClear(ds: seq<Draw>, c: Cursor, height: real)
    requires Spaced(ds, height) && (|ds| > 0 ==> NextLine(c, ds[0], height))
    ensures forall i :: 0 <= i < |ds| ==> ClearOfBottom(ds[i], c, height)
  {
    forall i | 0 <= i < |ds| ensures ClearOfBottom(ds[i], c, height) {
      if i > 0 {
        SpacedPage(ds, c, height, i - 1);
        assert NextLine(Below(ds[i - 1]), ds[i], height);
      }
    }
  }

  /** Every continuation line keeps a line of room above the bottom margin,
      unless it starts a fresh page. */
  lemma ContinuationsClearBottom(c: Cursor, lines: seq<string>, height: real)
    ensures forall i :: 0 <= i < |lines| ==> ClearOfBottom(DrawContinuations(c, lines, height).draws[i], c, height)
  {
    ContinuationsSpaced(c, lines, height);
    SpacedClear(DrawContinuations(c, lines, height).draws, c, height);
  }

  /** Starting at or below the top line, the continuation loop never draws
      above it. */
  lemma {:induction false} ContinuationsBelowTop(c: Cursor, lines: seq<string>, height: real)
    requires c.y <= Top(height)
    ensures DrawContinuations(c, lines, height).end.y <= Top(height)
    ensures forall i :: 0 <= i < |lines| ==> DrawContinuations(c, lines, height).draws[i].y <= Top(height)
    decreases |lines|
  {
    if |lines| > 0 {
      var at := Reserve(c, LineHeight, height);
      var below := Cursor(at.page, at.y - LineHeight);
      assert at.y <= Top(height);
      ContinuationsBelowTop(below, lines[1..], height);
      var r := DrawContinuations(c, lines, height);
      var rest := DrawContinuations(below, lines[1..], height);
      assert r.draws == [Draw(at.page, Margin, at.y, lines[0], Body)] + rest.draws;
      assert r.end == rest.end;
      forall i | 0 <= i < |lines| ensures r.draws[i].y <= Top(height) {
        if i > 0 { assert r.draws[i] == rest.draws[i - 1]; }
      }
    }
  }

  /** With room for every continuation line, no page is added and the cursor
      ends one line per line lower. */
  lemma {:induction false} ContinuationsFit(c: Cursor, lines: seq<string>, height: real)
    requires c.y - LineHeight * |lines| as real >= Margin
    ensures DrawContinuations(c, lines, height).end == Cursor(c.page, c.y - LineHeight * |lines| as real)
    ensures forall i :: 0 <= i < |lines| ==> DrawContinuations(c, lines, height).draws[i].page == c.page
    decreases |lines|
  {
    if |lines| > 0 {
      var n := |lines|;
      var below := Cursor(c.page, c.y - LineHeight);
      assert LineHeight * n as real == LineHeight + LineHeight * (n - 1) as real;
      assert below.y - LineHeight * (n - 1) as real == c.y - LineHeight * n as real;
      assert Reserve(c, LineHeight, height) == c;
      ContinuationsFit(below, lines[1..], height);
      var r := DrawContinuations(c, lines, height);
      var rest := DrawContinuations(below, lines[1..], height);
      assert r == Placed(rest.end, [Draw(c.page, Margin, c.y, lines[0], Body)] + rest.draws);
      forall i | 0 <= i < n ensures r.draws[i].page == c.page {
        if i > 0 {
          assert r.draws[i] == rest.draws[i - 1];
        }
      }
    }
  }

  /** The vertical placement of one message's draws: each continuation line
      keeps a line of room above the bottom margin unless it starts a fresh
      page; starting at or below the top line, nothing goes above it; with
      room for every line, the message stays on its page and the cursor ends
      one line per line plus the gap lower. */
  lemma MessageDrawsRoom(width: Measure, at: Cursor, roleText: string, lines: seq<string>, height: real)
    requires |lines| > 0
    ensures var r := MessageDraws(width, at, roleText, lines, height);
            && (forall i :: 2 <= i <= |lines| ==>
                  r.draws[i].y - LineHeight >= Margin || (r.draws[i].y == Top(height) && r.draws[i].page > at.page))
            && (at.y <= Top(height) ==>
                  r.end.y <= Top(height) && forall i :: 0 <= i <= |lines| ==> r.draws[i].y <= Top(height))
            && (at.y - LineHeight * |lines| as real >= Margin ==>
                  && r.end == Cursor(at.page, at.y - LineHeight * |lines| as real - MessageSpacing)
                  && forall i :: 0 <= i <= |lines| ==> r.draws[i].page == at.page)
  {
    var r := MessageDraws(width, at, roleText, lines, height);
    var below := Cursor(at.page, at.y - LineHeight);
    var rest := DrawContinuations(below, lines[1..], height);
    assert r.end == Cursor(rest.end.page, rest.end.y - MessageSpacing);
    assert forall i :: 2 <= i <= |lines| ==> r.draws[i] == rest.draws[i - 2];
    ContinuationsClearBottom(below, lines[1..], height);
    if at.y <= Top(height) {
      ContinuationsBelowTop(below, lines[1..], height);
    }
    if at.y - LineHeight * |lines| as real >= Margin {
      ContinuationsFit(below, lines[1..], height);
    }
  }

  /** One message of the loop: the label, the wrapped lines, and the block
      check for the label line plus every wrapped line. */
  function PlaceMessage(width: Measure, c: Cursor, m: Message, height: real): (r: Result<Placed>)
    ensures r.Err? <==> Blank(m.content)
  {
    var lines := BodyLines(width, m);
    var n := |lines|;
    var at := Reserve(c, LineHeight * (n + 1) as real, height);
    if n == 0 then Err(NoFirstLine(m.role))
    else Ok(MessageDraws(width, at, Label(m.role), lines, height))
  }

  /** The loop over the messages, threading the cursor; the first message
      whose lines are empty stops the generation. */
  function PlaceMessages(width: Measure, c: Cursor, ms: seq<Message>, height: real): (r: Result<Placed>)
    ensures r.Err? <==> exists i :: 0 <= i < |ms| && Blank(ms[i].content)
    decreases |ms|
  {
    if |ms| == 0 then Ok(Placed(c, []))
    else
      match PlaceMessage(width, c, ms[0], height)
      case Err(e) => Err(e)
      case Ok(first) =>
        match PlaceMessages(width, first.end, ms[1..], height)
        case Err(e) => Err(e)
        case Ok(rest) => Ok(Placed(rest.end, first.draws + rest.draws))
  }

  /** `generatePDF(messages)`, up to serialisation: the title at the top of
      the first page, the messages below it. The page count is one more than
      the index of the page the cursor ends on, since a page is only ever
      added to draw on it. */
  function GeneratePdf(width: Measure, ms: seq<Message>, height: real): (r: Result<Document>)
    ensures r.Err? <==> exists i :: 0 <= i < |ms| && Blank(ms[i].content)
    ensures r.Ok? ==> |r.value.draws| >= 1 && r.value.draws[0] == Draw(0, Margin, Top(height), TitleText, Heading)
  {
    var title := Draw(0, Margin, Top(height), TitleText, Heading);
    match PlaceMessages(width, Cursor(0, Top(height) - TitleSpacing), ms, height)
    case Err(e) => Err(e)
    case Ok(p) => Ok(Document(p.end.page + 1, [title] + p.draws))
  }

  // ---------------------------------------------------------------------
  // Properties of the generated layout
  // ---------------------------------------------------------------------

  /** The last of `prev` followed by `ds`. */
  function LastOf(prev: Draw, ds: seq<Draw>): Draw {
    if |ds| == 0 then prev else ds[|ds| - 1]
  }

  lemma ChainFlow(prev: Draw, a: seq<Draw>, b: seq<Draw>, height: real)
    requires Flow([prev] + a, height) && Flow([LastOf(prev, a)] + b, height)
    ensures Flow([prev] + (a + b), height)
    ensures LastOf(prev, a + b) == LastOf(LastOf(prev, a), b)
  {
    var mid := LastOf(prev, a);
    assert Flow(b, height) by {
      forall i | 0 <= i < |b| - 1 ensures Descends(b[i], b[i + 1], height) {
        assert b[i] == ([mid] + b)[i + 1] && b[i + 1] == ([mid] + b)[i + 2];
      }
    }
    if |b| > 0 {
      assert ([mid] + b)[0] == mid && ([mid] + b)[1] == b[0];
      assert ([prev] + a)[|a|] == mid;
    }
    FlowAppend([prev] + a, b, height);
    assert [prev] + (a + b) == ([prev] + a) + b;
  }

  /** Placing a message after a draw that the cursor follows keeps the
      descending order, and leaves the cursor following the last draw. */
  lemma PlaceMessageFlow(width: Measure, prev: Draw, c: Cursor, m: Message, height: real)
    requires Follows(prev, c)
    ensures var r := PlaceMessage(width, c, m, height);
            r.Ok? ==> Flow([prev] + r.value.draws, height) && Follows(LastOf(prev, r.value.draws), r.value.end)
  {
    var r := PlaceMessage(width, c, m, height);
    if r.Ok? {
      var lines := BodyLines(width, m);
      var at := Reserve(c, LineHeight * (|lines| + 1) as real, height);
      assert r.value == MessageDraws(width, at, Label(m.role), lines, height);
      MessageDrawsFlow(width, at, Label(m.role), lines, height);
      var ds := r.value.draws;
      FollowsAt(prev, c, ds[0], height);
      FlowAppend([prev], ds, height);
    }
  }

  lemma {:induction false} PlaceMessagesFlow(width: Measure, prev: Draw, c: Cursor, ms: seq<Message>, height: real)
    requires Follows(prev, c)
    ensures var r := PlaceMessages(width, c, ms, height);
            r.Ok? ==> Flow([prev] + r.value.draws, height) && Follows(LastOf(prev, r.value.draws), r.value.end)
    decreases |ms|
  {
    var r := PlaceMessages(width, c, ms, height);
    if r.Ok? && |ms| > 0 {
      var first := PlaceMessage(width, c, ms[0], height).value;
      PlaceMessageFlow(width, prev, c, ms[0], height);
      var last := LastOf(prev, first.draws);
      PlaceMessagesFlow(width, last, first.end, ms[1..], height);
      var rest := PlaceMessages(width, first.end, ms[1..], height).value;
      ChainFlow(prev, first.draws, rest.draws, height);
    }
  }

  /** The whole document descends draw by draw, from the title to the last
      line, and the last draw is on the last page. */
  lemma GeneratePdfFlow(width: Measure, ms: seq<Message>, height: real)
    ensures var r := GeneratePdf(width, ms, height);
            r.Ok? ==>
              && Flow(r.value.draws, height)
              && r.value.draws[|r.value.draws| - 1].page == r.value.pageCount - 1
  {
    var title := Draw(0, Margin, Top(height), TitleText, Heading);
    var start := Cursor(0, Top(height) - TitleSpacing);
    PlaceMessagesFlow(width, title, start, ms, height);
  }

  /** Page indices never decrease along the draws, and grow by at most one
      per draw. */
  lemma {:induction false} FlowPages(ds: seq<Draw>, height: real, i: nat, j: nat)
    requires Flow(ds, height) && i <= j < |ds|
    ensures ds[i].page <= ds[j].page <= ds[i].page + (j - i)
    decreases j
  {
    if i < j {
      FlowPages(ds, height, i, j - 1);
      assert Descends(ds[j - 1], ds[j], height);
    }
  }

  /** Two draws on the same page: the later one is never higher, and it is at
      least a line lower unless it is the first line drawn beside its label. */
  lemma {:induction false} FlowSeparates(ds: seq<Draw>, height: real, i: nat, j: nat)
    requires Flow(ds, height) && i < j < |ds| && ds[i].page == ds[j].page
    ensures ds[j].y <= ds[i].y
    ensures j > i + 1 || ds[i].ink != RoleLabel ==> ds[j].y <= ds[i].y - LineHeight
    decreases j
  {
    assert Descends(ds[j - 1], ds[j], height);
    if j > i + 1 {
      FlowPages(ds, height, i, j - 1);
      FlowPages(ds, height, j - 1, j);
      FlowSeparates(ds, height, i, j - 1);
      if ds[j - 1].ink == RoleLabel && j - 1 == i + 1 {
        assert Descends(ds[i], ds[i + 1], height);
      }
    }
  }

  /** Every page between the first and the last drawn one carries a draw. */
  lemma {:induction false} FlowCoversPages(ds: seq<Draw>, height: real, p: nat)
    requires Flow(ds, height) && |ds| > 0
    requires ds[0].page <= p <= ds[|ds| - 1].page
    ensures exists i :: 0 <= i < |ds| && ds[i].page == p
    decreases |ds|
  {
    if ds[|ds| - 1].page != p {
      var init := ds[..|ds| - 1];
      assert |ds| > 1;
      assert Descends(ds[|ds| - 2], ds[|ds| - 1], height);
      assert Flow(init, height) by {
        forall k | 0 <= k < |init| - 1 ensures Descends(init[k], init[k + 1], height) {
          assert init[k] == ds[k] && init[k + 1] == ds[k + 1];
        }
      }
      FlowCoversPages(init, height, p);
      var i :| 0 <= i < |init| && init[i].page == p;
      assert ds[i] == init[i];
    }
  }

  /** No two lines of the generated document overlap: on one page, every
      draw after another is at least a line lower, except the first line of a
      message, which shares its label's baseline. */
  lemma NoOverlap(width: Measure, ms: seq<Message>, height: real, i: nat, j: nat)
    requires GeneratePdf(width, ms, height).Ok?
    requires i < j < |GeneratePdf(width, ms, height).value.draws|
    requires var ds := GeneratePdf(width, ms, height).value.draws;
             ds[i].page == ds[j].page && !(j == i + 1 && ds[i].ink == RoleLabel)
    ensures var ds := GeneratePdf(width, ms, height).value.draws;
            ds[j].y <= ds[i].y - LineHeight
  {
    GeneratePdfFlow(width, ms, height);
    FlowSeparates(GeneratePdf(width, ms, height).value.draws, height, i, j);
  }

  /** Pages are only added to be drawn on: the first draw is on page 0, page
      indices never decrease, and every page of the document carries a draw. */
  lemma EveryPageUsed(width: Measure, ms: seq<Message>, height: real, p: nat)
    requires GeneratePdf(width, ms, height).Ok?
    requires p < GeneratePdf(width, ms, height).value.pageCount
    ensures var ds := GeneratePdf(width, ms, height).value.draws;
            exists i :: 0 <= i < |ds| && ds[i].page == p
  {
    GeneratePdfFlow(width, ms, height);
    FlowCoversPages(GeneratePdf(width, ms, height).value.draws, height, p);
  }

  /** The block check of one message. A page is added before the label
      exactly when the label line and all wrapped lines would reach below
      the bottom margin, and then the label is drawn on the top line of the
      new page. When the block fits, the whole message stays on the current
      page and the cursor ends one line per wrapped line plus the message gap
      lower. */
  lemma MessageBlock(width: Measure, c: Cursor, m: Message, height: real)
    requires !Blank(m.content)
    ensures var ds := PlaceMessage(width, c, m, height).value.draws;
            var end := PlaceMessage(width, c, m, height).value.end;
            var n := |BodyLines(width, m)|;
            && (ds[0].page == c.page + 1 <==> c.y - LineHeight * (n + 1) as real < Margin)
            && (ds[0].page == c.page + 1 ==> ds[0].y == Top(height))
            && (ds[0].page == c.page ==> ds[0].y == c.y)
            && (c.y - LineHeight * (n + 1) as real >= Margin ==>
                  && (forall i :: 0 <= i < |ds| ==> ds[i].page == c.page)
                  && end == Cursor(c.page, c.y - LineHeight * n as real - MessageSpacing))
  {
    var lines := BodyLines(width, m);
    var n := |lines|;
    var at := Reserve(c, LineHeight * (n + 1) as real, height);
    assert PlaceMessage(width, c, m, height).value == MessageDraws(width, at, Label(m.role), lines, height);
    MessageDrawsRoom(width, at, Label(m.role), lines, height);
    if c.y - LineHeight * (n + 1) as real >= Margin {
      assert at == c;
      assert c.y - LineHeight * n as real >= Margin;
    }
  }

  /** Where the parts of one message are drawn: the label `ROLE: ` at the
      left margin, the first wrapped line right after the label's width on
      the same baseline, every later line at the left margin; the lines are
      those of wrapping the content to the text block less the label. */
  lemma MessageColumns(width: Measure, c: Cursor, m: Message, height: real)
    requires !Blank(m.content)
    ensures var ds := PlaceMessage(width, c, m, height).value.draws;
            var lines := SplitTextIntoLines(width, m.content, MaxLineWidth - width(Upper(m.role) + ": "));
            && |ds| == |lines| + 1
            && ds[0].text == Upper(m.role) + ": " && ds[0].x == Margin && ds[0].ink == RoleLabel
            && ds[1].text == lines[0] && ds[1].x == Margin + width(Upper(m.role) + ": ") && ds[1].y == ds[0].y
            && forall i :: 2 <= i < |ds| ==> ds[i].text == lines[i - 1] && ds[i].x == Margin
  {
  }

  /** With a measure that gives no string a negative width, every drawn
      line of two or more words ends left of the text block's right edge. */
  lemma MessageInsideRightEdge(width: Measure, c: Cursor, m: Message, height: real, i: nat)
    requires !Blank(m.content)
    requires width(Label(m.role)) >= 0.0
    requires 1 <= i < |PlaceMessage(width, c, m, height).value.draws|
    requires ' ' in PlaceMessage(width, c, m, height).value.draws[i].text
    ensures var d := PlaceMessage(width, c, m, height).value.draws[i];
            d.x + width(d.text) < Margin + MaxLineWidth
  {
    LineWidthBound(width, m.content, WrapWidth(width, m.role), i - 1);
  }

  /** The texts drawn, in order. */
  function Texts(ds: seq<Draw>): (ts: seq<string>)
    ensures |ts| == |ds|
    ensures forall i :: 0 <= i < |ds| ==> ts[i] == ds[i].text
  {
    if |ds| == 0 then [] else [ds[0].text] + Texts(ds[1..])
  }

  /** What the document should say: every message's label followed by its
      wrapped lines, message after message. */
  function Script(width: Measure, ms: seq<Message>): seq<string> {
    if |ms| == 0 then []
    else [Label(ms[0].role)] + BodyLines(width, ms[0]) + Script(width, ms[1..])
  }

  /** How a successful run of the message loop decomposes: the first
      message succeeded, the rest succeeded from where it ended, and the draws
      are the first message's followed by the rest's. */
  lemma PlaceMessagesCons(width: Measure, c: Cursor, ms: seq<Message>, height: real)
    requires |ms| > 0 && PlaceMessages(width, c, ms, height).Ok?
    ensures var first := PlaceMessage(width, c, ms[0], height);
            && first.Ok?
            && var rest := PlaceMessages(width, first.value.end, ms[1..], height);
            && rest.Ok?
            && PlaceMessages(width, c, ms, height).value == Placed(rest.value.end, first.value.draws + rest.value.draws)
  {
  }

  lemma {:induction false} TextsAppend(a: seq<Draw>, b: seq<Draw>)
    ensures Texts(a + b) == Texts(a) + Texts(b)
  {
  }

  lemma MessageText(width: Measure, c: Cursor, m: Message, height: real)
    requires !Blank(m.content)
    ensures Texts(PlaceMessage(width, c, m, height).value.draws) == [Label(m.role)] + BodyLines(width, m)
  {
    var ds := PlaceMessage(width, c, m, height).value.draws;
    var want := [Label(m.role)] + BodyLines(width, m);
    assert forall i :: 0 <= i < |ds| ==> Texts(ds)[i] == want[i];
  }

  lemma {:induction false} PlaceMessagesText(width: Measure, c: Cursor, ms: seq<Message>, height: real)
    ensures var r := PlaceMessages(width, c, ms, height);
            r.Ok? ==> Texts(r.value.draws) == Script(width, ms)
    decreases |ms|
  {
    var r := PlaceMessages(width, c, ms, height);
    if r.Ok? && |ms| > 0 {
      PlaceMessagesCons(width, c, ms, height);
      var first := PlaceMessage(width, c, ms[0], height).value;
      var rest := PlaceMessages(width, first.end, ms[1..], height).value;
      PlaceMessagesText(width, first.end, ms[1..], height);
      MessageText(width, c, ms[0], height);
      TextsAppend(first.draws, rest.draws);
    }
  }

  /** Nothing is lost, duplicated or reordered: the document draws the title
      and then, message by message, the label and every wrapped line. */
  lemma {:induction false} DocumentText(width: Measure, ms: seq<Message>, height: real)
    ensures var r := GeneratePdf(width, ms, height);
            r.Ok? ==> Texts(r.value.draws) == [TitleText] + Script(width, ms)
  {
    PlaceMessagesText(width, Cursor(0, Top(height) - TitleSpacing), ms, height);
    var r := GeneratePdf(width, ms, height);
    if r.Ok? {
      var p := PlaceMessages(width, Cursor(0, Top(height) - TitleSpacing), ms, height).value;
      assert Texts(r.value.draws) == [TitleText] + Texts(p.draws);
    }
  }

  /** Every draw lies between a line above the bottom margin and the top line. */
  predicate WithinMargins(ds: seq<Draw>, height: real) {
    forall i :: 0 <= i < |ds| ==> Margin + LineHeight <= ds[i].y <= Top(height)
  }

  lemma WithinMarginsAppend(a: seq<Draw>, b: seq<Draw>, height: real)
    requires WithinMargins(a, height) && WithinMargins(b, height)
    ensures WithinMargins(a + b, height)
  {
    forall i | 0 <= i < |a + b| ensures Margin + LineHeight <= (a + b)[i].y <= Top(height) {
      if i < |a| { assert (a + b)[i] == a[i]; }
      else { assert (a + b)[i] == b[i - |a|]; }
    }
  }

  lemma PlaceMessageBounds(width: Measure, c: Cursor, m: Message, height: real)
    requires height >= 2.0 * Margin + LineHeight && c.y <= Top(height)
    ensures var r := PlaceMessage(width, c, m, height);
            r.Ok? ==> r.value.end.y <= Top(height) && WithinMargins(r.value.draws, height)
  {
    var r := PlaceMessage(width, c, m, height);
    if r.Ok? {
      var lines := BodyLines(width, m);
      var n := |lines|;
      var at := Reserve(c, LineHeight * (n + 1) as real, height);
      assert r.value == MessageDraws(width, at, Label(m.role), lines, height);
      MessageDrawsRoom(width, at, Label(m.role), lines, height);
      assert at.y >= Margin + LineHeight by {
        if at.page == c.page {
          assert LineHeight * (n + 1) as real >= LineHeight;
        }
      }
      var ds := r.value.draws;
      assert ds[0].y == at.y && ds[1].y == at.y;
    }
  }

  lemma {:induction false} PlaceMessagesBounds(width: Measure, c: Cursor, ms: seq<Message>, height: real)
    requires height >= 2.0 * Margin + LineHeight && c.y <= Top(height)
    ensures var r := PlaceMessages(width, c, ms, height);
            r.Ok? ==> r.value.end.y <= Top(height) && WithinMargins(r.value.draws, height)
    decreases |ms|
  {
    var r := PlaceMessages(width, c, ms, height);
    if r.Ok? && |ms| > 0 {
      PlaceMessagesCons(width, c, ms, height);
      var first := PlaceMessage(width, c, ms[0], height).value;
      PlaceMessageBounds(width, c, ms[0], height);
      PlaceMessagesBounds(width, first.end, ms[1..], height);
      var rest := PlaceMessages(width, first.end, ms[1..], height).value;
      WithinMarginsAppend(first.draws, rest.draws, height);
    }
  }

  /** On a page tall enough for one line between the margins, nothing is
      drawn above the top margin, and every line keeps a full line height
      above the bottom margin. */
  lemma VerticalBounds(width: Measure, ms: seq<Message>, height: real)
    requires height >= 2.0 * Margin + LineHeight
    ensures var r := GeneratePdf(width, ms, height);
            r.Ok? ==> forall i :: 0 <= i < |r.value.draws| ==>
                        Margin + LineHeight <= r.value.draws[i].y <= Top(height)
  {
    var start := Cursor(0, Top(height) - TitleSpacing);
    PlaceMessagesBounds(width, start, ms, height);
    var r := GeneratePdf(width, ms, height);
    if r.Ok? {
      var p := PlaceMessages(width, start, ms, height).value;
      var title := Draw(0, Margin, Top(height), TitleText, Heading);
      assert r.value.draws == [title] + p.draws;
      WithinMarginsAppend([title], p.draws, height);
    }
  }
}

=== FILE: send_pdf.dfy ===
/**
  The `POST` handler that lays a conversation out as a PDF and mails it:
  its e-mail check (a fixed regular expression), its message-array check,
  and the order in which it validates, generates and sends. The PDF
  library's result and the mail service's result are parameters.
*/
module SendPdfRoute {
  import opened Text
  import opened Json
  import PdfLayout
  import Wrap

  // ---------------------------------------------------------------------
  // isValidEmail
  // ---------------------------------------------------------------------

  /** `[^\s@]`: neither white space nor an at sign. */
  predicate AtomChar(c: char) {
    !IsWhitespace(c) && c != '@'
  }

  /** `[^\s@]+` */
  predicate Atom(s: string) {
    |s| > 0 && forall k :: 0 <= k < |s| ==> AtomChar(s[k])
  }

  /** The pattern `^[^\s@]+@[^\s@]+\.[^\s@]+$` matched with its `@` at `i`
      and its escaped dot at `j`. */
  ghost predicate MatchesAt(s: string, i: int, j: int) {
    && 0 <= i < j < |s|
    && s[i] == '@' && s[j] == '.'
    && Atom(s[..i]) && Atom(s[i + 1..j]) && Atom(s[j + 1..])
  }

  /** The regular expression of `isValidEmail` accepts `s`. */
  ghost predicate EmailPattern(s: string) {
    exists i, j :: MatchesAt(s, i, j)
  }

  /** Index of the first occurrence of `c` in `s`, or |s| when there is none. */
  function IndexOf(s: string, c: char): (i: nat)
    ensures i <= |s|
    ensures forall k :: 0 <= k < i ==> s[k] != c
    ensures i < |s| ==> s[i] == c
  {
    if |s| == 0 then 0
    else if s[0] == c then 0
    else 1 + IndexOf(s[1..], c)
  }

  /** A dot with at least one character on each side of it. */
  predicate HasInnerDot(d: string) {
    exists j :: 1 <= j < |d| - 1 && d[j] == '.'
  }

  /** The pattern decided by one scan for the `@` sign: no white space,
      exactly one `@` with at least one character before it, and after it a
      dot with at least one character on each side. */
  predicate EmailScan(email: string) {
    var at := IndexOf(email, '@');
    && (forall k :: 0 <= k < |email| ==> !IsWhitespace(email[k]))
    && 0 < at < |email|
    && '@' !in email[at + 1..]
    && HasInnerDot(email[at + 1..])
  }

  /** A string the scan accepts matches the regular expression. */
  lemma ScanMatches(email: string)
    requires EmailScan(email)
    ensures EmailPattern(email)
  {
    var at := IndexOf(email, '@');
    var d := email[at + 1..];
    var j' :| 1 <= j' < |d| - 1 && d[j'] == '.';
    var j := at + 1 + j';
    assert email[j] == d[j'];
    forall k | 0 <= k < |email| && k != at ensures AtomChar(email[k]) {
      if k > at { assert email[k] == d[k - at - 1]; }
    }
    assert Atom(email[..at]) by {
      forall k | 0 <= k < at ensures AtomChar(email[..at][k]) { assert email[..at][k] == email[k]; }
    }
    var host := email[at + 1..j];
    assert Atom(host) by {
      forall k | 0 <= k < |host| ensures AtomChar(host[k]) {
        assert host[k] == email[at + 1 + k];
      }
    }
    var tld := email[j + 1..];
    assert Atom(tld) by {
      forall k | 0 <= k < |tld| ensures AtomChar(tld[k]) {
        assert tld[k] == email[j + 1 + k];
      }
    }
    assert MatchesAt(email, at, j);
  }

  /** In a match every character but the `@` itself is an atom character. */
  lemma MatchAtoms(email: string, i: int, j: int)
    requires MatchesAt(email, i, j)
    ensures forall k :: 0 <= k < |email| && k != i ==> AtomChar(email[k])
  {
    forall k | 0 <= k < |email| && k != i ensures AtomChar(email[k]) {
      if k < i { assert email[k] == email[..i][k]; }
      else if k < j { assert email[k] == email[i + 1..j][k - i - 1]; }
      else if k > j { assert email[k] == email[j + 1..][k - j - 1]; }
    }
  }

  /** A string the regular expression matches passes the scan. */
  lemma MatchScans(email: string)
    requires EmailPattern(email)
    ensures EmailScan(email)
  {
    var i, j :| MatchesAt(email, i, j);
    MatchAtoms(email, i, j);
    var at := IndexOf(email, '@');
    assert at == i;
    var d := email[at + 1..];
    assert '@' !in d by {
      forall k | 0 <= k < |d| ensures d[k] != '@' { assert d[k] == email[at + 1 + k]; }
    }
    assert d[j - i - 1] == '.';
  }

  /** The scan decides exactly the regular expression. */
  lemma EmailRegex(email: string)
    ensures EmailScan(email) <==> EmailPattern(email)
  {
    if EmailScan(email) {
      ScanMatches(email);
    }
    if EmailPattern(email) {
      MatchScans(email);
    }
  }

  /** `isValidEmail(email)`: the regular expression's test, decided by the
      scan. */
  function IsValidEmail(email: string): (ok: bool)
    ensures ok <==> EmailPattern(email)
  {
    EmailRegex(email);
    EmailScan(email)
  }

  /** What the pattern implies on its own: no white space anywhere, one
      single `@` with something before it, and a dot with something on each
      side after it. */
  lemma ValidEmailShape(email: string)
    requires IsValidEmail(email)
    ensures forall k :: 0 <= k < |email| ==> !IsWhitespace(email[k])
    ensures exists i :: 0 < i < |email| && email[i] == '@'
                        && (forall k :: 0 <= k < |email| && email[k] == '@' ==> k == i)
                        && HasInnerDot(email[i + 1..])
  {
    EmailRegex(email);
    var at := IndexOf(email, '@');
    var d := email[at + 1..];
    forall k | at < k < |email| ensures email[k] != '@' {
      assert email[k] == d[k - at - 1];
    }
  }

  // ---------------------------------------------------------------------
  // isValidMessages
  // ---------------------------------------------------------------------

  /** A string property of an object that is not empty after trimming. */
  predicate FilledString(v: Json, key: string) {
    && v.JObject? && key in v.fields
    && v.fields[key].JString?
    && Trim(v.fields[key].s) != ""
  }

  /** One element passes the check inside `every`. */
  predicate ValidMessage(v: Json) {
    FilledString(v, "role") && FilledString(v, "content")
  }

  /** A string property holding at least one character that is not white
      space. */
  predicate HasText(v: Json, key: string) {
    && v.JObject? && key in v.fields
    && v.fields[key].JString?
    && !AllWhitespace(v.fields[key].s)
  }

  /** `isValidMessages(messages)`: a non-empty array whose every element has
      a `role` and a `content` string with a character other than white
      space. */
  function IsValidMessages(v: Json): (ok: bool)
    ensures ok <==> && v.JArray? && |v.items| > 0
                    && forall i :: 0 <= i < |v.items| ==> HasText(v.items[i], "role") && HasText(v.items[i], "content")
  {
    && v.JArray?
    && |v.items| > 0
    && forall i :: 0 <= i < |v.items| ==> ValidMessage(v.items[i])
  }

  /** The messages as the PDF generator reads them. */
  function ToMessages(v: Json): (ms: seq<PdfLayout.Message>)
    requires IsValidMessages(v)
    ensures |ms| == |v.items|
    ensures forall i :: 0 <= i < |ms| ==>
              && ms[i].role == v.items[i].fields["role"].s
              && ms[i].content == v.items[i].fields["content"].s
  {
    seq(|v.items|, i requires 0 <= i < |v.items| =>
      PdfLayout.Message(v.items[i].fields["role"].s, v.items[i].fields["content"].s))
  }

  /** Content that is not empty after trimming holds a character other than a
      space, so it has a first line. */
  lemma FilledIsNotBlank(s: string)
    requires Trim(s) != ""
    ensures !Wrap.Blank(s)
  {
    var k :| 0 <= k < |s| && !IsWhitespace(s[k]);
    assert s[k] != ' ';
  }

  /** Validated messages always lay out: the one way the layout fails, a
      message whose content has no word, is excluded by the check. */
  lemma ValidMessagesLayOut(width: Wrap.Measure, v: Json, height: real)
    requires IsValidMessages(v)
    ensures PdfLayout.GeneratePdf(width, ToMessages(v), height).Ok?
  {
    var ms := ToMessages(v);
    forall i | 0 <= i < |ms| ensures !Wrap.Blank(ms[i].content) {
      assert ValidMessage(v.items[i]);
      FilledIsNotBlank(ms[i].content);
    }
  }

  // ---------------------------------------------------------------------
  // POST
  // ---------------------------------------------------------------------

  /** What `generatePDF` gave back: it threw, or a buffer of some length. */
  datatype PdfOutcome = PdfThrew | PdfBytes(length: nat)

  /** The calls out of the handler, in order. */
  datatype Effect = CallGeneratePdf(messages: seq<PdfLayout.Message>) | SendPdfEmail(to: string)

  datatype Response = Failed(status: nat, error: string) | Sent(message: string)

  datatype Handled = Handled(response: Response, effects: seq<Effect>)

  function Status(r: Response): nat {
    match r
    case Failed(status, _) => status
    case Sent(_) => 200
  }

  const InvalidJson := "Invalid JSON in request body"
  const EmailRequired := "Email address is required and must be a string"
  const InvalidEmailFormat := "Invalid email format"
  const MessagesRequired := "Messages array is required"
  const InvalidMessages := "Messages must be a non-empty array with valid message objects"
  const GenerationFailed := "Failed to generate PDF"
  const EmptyPdf := "Generated PDF is empty"
  const EmailFailed := "Failed to send email"
  const InternalError := "Internal server error"

  /** `POST(req)`. `body` is the parsed request body (`None` when it is not
      JSON), `pdf` what the generator returned, `mailOk` whether sending
      succeeded. Destructuring a `null` body throws, which the outer `catch`
      answers with 500. */
  function Post(body: Option<Json>, pdf: PdfOutcome, mailOk: bool): (h: Handled)
    ensures h.response.Failed? ==> h.response.status in {400, 500}
    ensures Status(h.response) == 400 ==> h.effects == []
    ensures |h.effects| <= 2
    ensures h.response.Sent? <==> |h.effects| == 2 && mailOk
  {
    if body.None? then Handled(Failed(400, InvalidJson), [])
    else if body.value.JNull? then Handled(Failed(500, InternalError), [])
    else
      var toEmail := Get(body.value, "toEmail");
      var messages := Get(body.value, "messages");
      if !Present(toEmail) || !toEmail.value.JString? then Handled(Failed(400, EmailRequired), [])
      else if !IsValidEmail(toEmail.value.s) then Handled(Failed(400, InvalidEmailFormat), [])
      else if !Present(messages) then Handled(Failed(400, MessagesRequired), [])
      else if !IsValidMessages(messages.value) then Handled(Failed(400, InvalidMessages), [])
      else
        var generate := [CallGeneratePdf(ToMessages(messages.value))];
        if pdf.PdfThrew? then Handled(Failed(500, GenerationFailed), generate)
        else if pdf.length == 0 then Handled(Failed(500, EmptyPdf), generate)
        else
          var send := generate + [SendPdfEmail(toEmail.value.s)];
          if !mailOk then Handled(Failed(500, EmailFailed), send)
          else Handled(Sent("PDF sent successfully to " + toEmail.value.s), send)
  }

  /** A request the handler lets through to generation: a JSON object (or
      other non-null value) whose `toEmail` is a string the e-mail pattern
      accepts and whose `messages` is a non-empty array of valid messages. */
  ghost predicate Accepted(body: Option<Json>) {
    && body.Some? && !body.value.JNull?
    && var toEmail := Get(body.value, "toEmail");
    && var messages := Get(body.value, "messages");
    && toEmail.Some? && toEmail.value.JString? && EmailPattern(toEmail.value.s)
    && messages.Some? && IsValidMessages(messages.value)
  }

  /** Generation is reached exactly for accepted requests; every other
      parsed, non-null body is answered 400 with nothing called; mail is sent
      exactly when generation returned a non-empty buffer, and the answer is
      a success exactly when sending also worked. */
  lemma PostOutcome(body: Option<Json>, pdf: PdfOutcome, mailOk: bool)
    ensures var h := Post(body, pdf, mailOk);
            && (|h.effects| > 0 <==> Accepted(body))
            && (body.Some? && !body.value.JNull? && !Accepted(body) ==> Status(h.response) == 400 && h.effects == [])
            && (Accepted(body) ==> h.effects[0] == CallGeneratePdf(ToMessages(Get(body.value, "messages").value)))
            && ((exists i :: 0 <= i < |h.effects| && h.effects[i].SendPdfEmail?) <==>
                  Accepted(body) && pdf.PdfBytes? && pdf.length > 0)
            && (h.response.Sent? <==> Accepted(body) && pdf.PdfBytes? && pdf.length > 0 && mailOk)
            && (Accepted(body) && !(pdf.PdfBytes? && pdf.length > 0) ==> Status(h.response) == 500)
  {
    if body.Some? && !body.value.JNull? {
      var toEmail := Get(body.value, "toEmail");
      if toEmail.Some? && toEmail.value.JString? {
        EmailRegex(toEmail.value.s);
      }
      var messages := Get(body.value, "messages");
      if messages.Some? && IsValidMessages(messages.value) {
        assert Truthy(messages.value);
      }
      var h := Post(body, pdf, mailOk);
      if Accepted(body) && pdf.PdfBytes? && pdf.length > 0 {
        assert h.effects[1].SendPdfEmail?;
      }
    }
  }

  /** The checks run in a fixed order: a missing or non-string address is
      reported before anything about the messages is looked at, then a
      malformed address, then missing messages, then invalid ones. */
  lemma PostCheckOrder(body: Json, pdf: PdfOutcome, mailOk: bool)
    requires !body.JNull?
    ensures var toEmail := Get(body, "toEmail");
            var messages := Get(body, "messages");
            var r := Post(Some(body), pdf, mailOk).response;
            && (!Present(toEmail) || !toEmail.value.JString? ==> r == Failed(400, EmailRequired))
            && (Present(toEmail) && toEmail.value.JString? && !EmailPattern(toEmail.value.s) ==>
                  r == Failed(400, InvalidEmailFormat))
            && (Present(toEmail) && toEmail.value.JString? && EmailPattern(toEmail.value.s) ==>
                  && (!Present(messages) ==> r == Failed(400, MessagesRequired))
                  && (Present(messages) && !IsValidMessages(messages.value) ==> r == Failed(400, InvalidMessages)))
  {
    var toEmail := Get(body, "toEmail");
    if toEmail.Some? && toEmail.value.JString? {
      EmailRegex(toEmail.value.s);
    }
  }
}

=== FILE: send_summary.dfy ===
/**
  The `POST` handler that has the assistant summarise a thread and mails the
  summary: its guards, and the transcript it builds from the thread's
  messages. What the assistant service returns and whether mailing works are
  parameters.
*/
module SendSummaryRoute {
  import opened Text
  import opened Json

  /** One content part of a thread message; `text` is `c.text?.value`,
      absent for a part that carries no text. */
  datatype ContentPart = ContentPart(text: Option<string>)

  datatype ThreadMessage = ThreadMessage(role: string, content: seq<ContentPart>)

  /** How `join` renders a part: an absent text becomes the empty string. */
  function PartText(c: ContentPart): string {
    match c.text
    case Some(v) => v
    case None => ""
  }

  /** `content.map((c) => c.text?.value)`, as `join` renders it. */
  function PartTexts(parts: seq<ContentPart>): (ts: seq<string>)
    ensures |ts| == |parts|
    ensures forall i :: 0 <= i < |parts| ==> ts[i] == PartText(parts[i])
  {
    if |parts| == 0 then [] else [PartText(parts[0])] + PartTexts(parts[1..])
  }

  /** The content of one transcript entry: the parts' texts joined with
      single spaces, then trimmed. */
  function EntryContent(m: ThreadMessage): (c: string)
    ensures c != "" ==> !IsWhitespace(c[0]) && !IsWhitespace(c[|c| - 1])
  {
    Trim(Join(PartTexts(m.content), ' '))
  }

  /** One transcript entry: `ROLE: content`. */
  function Entry(m: ThreadMessage): string {
    Upper(m.role) + ": " + EntryContent(m)
  }

  /** One entry per fetched message, in fetched order. */
  function Entries(ms: seq<ThreadMessage>): (es: seq<string>)
    ensures |es| == |ms|
    ensures forall i :: 0 <= i < |ms| ==> es[i] == Entry(ms[i])
  {
    if |ms| == 0 then [] else [Entry(ms[0])] + Entries(ms[1..])
  }

  function Reverse<T>(s: seq<T>): (r: seq<T>)
    ensures |r| == |s|
    ensures forall i :: 0 <= i < |s| ==> r[i] == s[|s| - 1 - i]
  {
    if |s| == 0 then [] else Reverse(s[1..]) + [s[0]]
  }

  /** The transcript: the entries reversed (the service lists newest first)
      and joined with newlines. */
  function Transcript(ms: seq<ThreadMessage>): (t: string)
  {
    Join(Reverse(Entries(ms)), '\n')
  }

  /** The transcript read the other way round: the oldest message's entry
      first, each newer one on a line of its own after it. `ms` is newest
      first, so the oldest is its last element. */
  function Chronicle(ms: seq<ThreadMessage>): string
    decreases |ms|
  {
    if |ms| == 0 then ""
    else if |ms| == 1 then Entry(ms[0])
    else Chronicle(ms[1..]) + "\n" + Entry(ms[0])
  }

  lemma {:induction false} TranscriptIsChronicle(ms: seq<ThreadMessage>)
    ensures Transcript(ms) == Chronicle(ms)
    decreases |ms|
  {
    if |ms| > 0 {
      TranscriptIsChronicle(ms[1..]);
      var older := Reverse(Entries(ms[1..]));
      assert Entries(ms) == [Entry(ms[0])] + Entries(ms[1..]);
      assert Reverse(Entries(ms)) == older + [Entry(ms[0])];
      JoinSnoc(older, Entry(ms[0]), '\n');
    }
  }

  /** Splitting newline-free lines, reversed and joined with newlines, gives
      back the reversed lines. */
  lemma {:induction false} ReversedLines(es: seq<string>)
    requires |es| >= 1
    requires forall k :: 0 <= k < |es| ==> '\n' !in es[k]
    ensures Split(Join(Reverse(es), '\n'), '\n') == Reverse(es)
  {
    var rs := Reverse(es);
    forall k | 0 <= k < |rs| ensures '\n' !in rs[k] {
      assert rs[k] == es[|es| - 1 - k];
    }
    SplitJoin(rs, '\n');
  }

  /** When no entry holds a newline, the transcript's lines are exactly the
      entries reversed: one line per fetched message, line `k` holding the
      entry of the `k`-th oldest (by `Reverse`'s contract). */
  lemma TranscriptLines(ms: seq<ThreadMessage>)
    requires |ms| >= 1
    requires forall i :: 0 <= i < |ms| ==> '\n' !in Entry(ms[i])
    ensures Split(Transcript(ms), '\n') == Reverse(Entries(ms))
  {
    var es := Entries(ms);
    forall k | 0 <= k < |es| ensures '\n' !in es[k] {
      assert es[k] == Entry(ms[k]);
    }
    ReversedLines(es);
  }

  lemma JoinFirst(ts: seq<string>, sep: char)
    requires |ts| >= 1 && ts[0] != ""
    ensures |Join(ts, sep)| > 0 && Join(ts, sep)[0] == ts[0][0]
  {
  }

  lemma {:induction false} JoinLast(ts: seq<string>, sep: char)
    requires |ts| >= 1 && ts[|ts| - 1] != ""
    ensures var j := Join(ts, sep);
            && |j| > 0
            && j[|j| - 1] == ts[|ts| - 1][|ts[|ts| - 1]| - 1]
  {
    if |ts| > 1 {
      JoinLast(ts[1..], sep);
      assert ts[1..][|ts| - 2] == ts[|ts| - 1];
    }
  }

  /** When every part carries a text that is non-empty and neither starts
      nor ends with white space, trimming changes nothing: the entry is the
      upper-cased role, a colon, a space, and the texts joined by spaces. */
  lemma EntryOfTextParts(m: ThreadMessage)
    requires |m.content| >= 1
    requires forall i :: 0 <= i < |m.content| ==>
               var t := m.content[i].text;
               t.Some? && t.value != "" && !IsWhitespace(t.value[0]) && !IsWhitespace(t.value[|t.value| - 1])
    ensures Entry(m) == Upper(m.role) + ": " + Join(PartTexts(m.content), ' ')
  {
    var ts := PartTexts(m.content);
    JoinFirst(ts, ' ');
    JoinLast(ts, ' ');
    TrimOfPadded("", Join(ts, ' '), "");
    assert "" + Join(ts, ' ') + "" == Join(ts, ' ');
  }

  // ---------------------------------------------------------------------
  // POST
  // ---------------------------------------------------------------------

  const PromptPrefix := "Here is the full conversation transcript. Please summarize it:\n\n"

  /** The message sent back to the assistant. */
  function Prompt(history: seq<ThreadMessage>): string {
    PromptPrefix + Transcript(history)
  }

  /** `messages.data[0]?.content?.map((c) => c.text?.value).join("\n")`:
      absent when the thread has no message, and empty exactly when the
      newest message has no content part or a single one without text. */
  function SummaryOf(latest: Option<ThreadMessage>): (s: Option<string>)
    ensures s.None? <==> latest.None?
    ensures latest.Some? ==>
              (s.value == "" <==> |latest.value.content| == 0
                                  || (|latest.value.content| == 1 && PartText(latest.value.content[0]) == ""))
  {
    match latest
    case None => None
    case Some(m) => Some(Join(PartTexts(m.content), '\n'))
  }

  /** When no part's text holds a newline, the summary's lines are exactly
      the texts of the newest message's parts, in order, an absent text
      giving an empty line. */
  lemma SummaryLines(m: ThreadMessage)
    requires |m.content| >= 1
    requires forall i :: 0 <= i < |m.content| ==> '\n' !in PartText(m.content[i])
    ensures Split(SummaryOf(Some(m)).value, '\n') == PartTexts(m.content)
  {
    SplitJoin(PartTexts(m.content), '\n');
  }

  /** The calls out of the handler, in order. */
  datatype Effect =
    | ListMessages(threadId: Json)
    | PostMessage(threadId: Json, content: string)
    | RunAssistant(threadId: Json)
    | SendSummary(summary: string, to: Json)

  datatype Response = Failed(status: nat, error: string) | Summarized(summary: string, message: string)

  datatype Handled = Handled(response: Response, effects: seq<Effect>)

  const MissingFields := "Missing required fields: threadId, toEmail"
  const NoSummary := "No summary generated"
  const SummaryFailed := "Failed to generate summary"
  const SummaryMailed := "Summary generated and emailed successfully."

  /** `POST(request)`. `body` is the parsed request body (`None` when it is
      not JSON), `history` what the first listing of the thread returns,
      `latest` the newest message of the second listing, `mailOk` whether
      mailing worked. A body that is not JSON, a `null` body and a failed
      mailing all throw inside the `try`, which answers 500. */
  function Post(body: Option<Json>, history: seq<ThreadMessage>, latest: Option<ThreadMessage>, mailOk: bool): (h: Handled)
    ensures h.response.Failed? ==> h.response.status in {400, 500}
    ensures h.response.Failed? && h.response.status == 400 ==> h.effects == []
    ensures h.response.Summarized? ==>
              && mailOk && h.response.summary != "" && |h.effects| == 5
              && h.effects[4].SendSummary? && h.effects[4].summary == h.response.summary
  {
    if body.None? || body.value.JNull? then Handled(Failed(500, SummaryFailed), [])
    else
      var threadId := Get(body.value, "threadId");
      var toEmail := Get(body.value, "toEmail");
      if !Present(threadId) || !Present(toEmail) then Handled(Failed(400, MissingFields), [])
      else
        var t := threadId.value;
        var calls := [ListMessages(t), PostMessage(t, Prompt(history)), RunAssistant(t), ListMessages(t)];
        var summary := SummaryOf(latest);
        if summary.None? || summary.value == "" then Handled(Failed(500, NoSummary), calls)
        else
          var sent := calls + [SendSummary(summary.value, toEmail.value)];
          if !mailOk then Handled(Failed(500, SummaryFailed), sent)
          else Handled(Summarized(summary.value, SummaryMailed), sent)
  }

  /** Both required fields are present (truthy). */
  predicate HasFields(body: Json) {
    Present(Get(body, "threadId")) && Present(Get(body, "toEmail"))
  }

  /** A parsed, non-null body without both fields is answered 400 before
      the thread is touched. */
  lemma PostRejects(body: Json, history: seq<ThreadMessage>, latest: Option<ThreadMessage>, mailOk: bool)
    requires !body.JNull? && !HasFields(body)
    ensures Post(Some(body), history, latest, mailOk) == Handled(Failed(400, MissingFields), [])
  {
  }

  /** With both fields, the thread is listed, then the prompt posted to it is
      the fixed prefix followed by the transcript, then the assistant runs on
      it and the thread is listed again. */
  lemma PostPrompts(body: Json, history: seq<ThreadMessage>, latest: Option<ThreadMessage>, mailOk: bool)
    requires !body.JNull? && HasFields(body)
    ensures var h := Post(Some(body), history, latest, mailOk);
            var t := Get(body, "threadId").value;
            && |h.effects| >= 4
            && h.effects[..4] == [ListMessages(t), PostMessage(t, PromptPrefix + Transcript(history)), RunAssistant(t), ListMessages(t)]
  {
  }

  /** An absent or empty summary is answered 500 and nothing is mailed. */
  lemma {:induction false} PostNoSummary(body: Json, history: seq<ThreadMessage>, latest: Option<ThreadMessage>, mailOk: bool)
    requires !body.JNull? && HasFields(body)
    requires SummaryOf(latest).None? || SummaryOf(latest).value == ""
    ensures var h := Post(Some(body), history, latest, mailOk);
            && h.response == Failed(500, NoSummary)
            && forall i :: 0 <= i < |h.effects| ==> !h.effects[i].SendSummary?
  {
    var h := Post(Some(body), history, latest, mailOk);
    assert |h.effects| == 4;
    assert h.effects[0].ListMessages? && h.effects[1].PostMessage? && h.effects[2].RunAssistant? && h.effects[3].ListMessages?;
    forall i | 0 <= i < |h.effects| ensures !h.effects[i].SendSummary? {
      assert i == 0 || i == 1 || i == 2 || i == 3;
    }
  }

  /** The request is one the handler goes on to mail for. */
  predicate Mails(body: Option<Json>, latest: Option<ThreadMessage>) {
    && body.Some? && !body.value.JNull? && HasFields(body.value)
    && SummaryOf(latest).Some? && SummaryOf(latest).value != ""
  }

  /** The summary is mailed, to the requested address, exactly when the body
      has both fields and the summary is non-empty; the answer is a success,
      carrying that summary, exactly when mailing also worked. */
  lemma PostOutcome(body: Option<Json>, history: seq<ThreadMessage>, latest: Option<ThreadMessage>, mailOk: bool)
    ensures var h := Post(body, history, latest, mailOk);
            && ((exists i :: 0 <= i < |h.effects| && h.effects[i].SendSummary?) <==> Mails(body, latest))
            && (Mails(body, latest) ==>
                  h.effects[|h.effects| - 1] == SendSummary(SummaryOf(latest).value, Get(body.value, "toEmail").value))
            && (h.response.Summarized? <==> Mails(body, latest) && mailOk)
            && (h.response.Summarized? ==> h.response.summary == SummaryOf(latest).value)
            && (!h.response.Summarized? ==> h.response.status in {400, 500})
  {
    var h := Post(body, history, latest, mailOk);
    if body.None? || body.value.JNull? {
      assert h == Handled(Failed(500, SummaryFailed), []);
    } else if !HasFields(body.value) {
      PostRejects(body.value, history, latest, mailOk);
    } else if !Mails(body, latest) {
      PostNoSummary(body.value, history, latest, mailOk);
    } else {
      assert |h.effects| == 5;
      assert h.effects[4] == SendSummary(SummaryOf(latest).value, Get(body.value, "toEmail").value);
    }
  }
}

=== FILE: text.dfy ===
/**
  String primitives the application relies on, with the JavaScript semantics
  the handlers and the PDF generator use: `split` and `join` on one separator
  character, `trim`, the regular-expression class `\s`, and `toUpperCase`
  (restricted to ASCII letters).
*/
module Text {

  /** JavaScript's white-space set, shared by `String.prototype.trim` and the
      regular-expression class `\s`: the WhiteSpace and LineTerminator code
      points of ECMAScript. */
  predicate IsWhitespace(c: char) {
    var n := c as int;
    || n == 0x09 || n == 0x0A || n == 0x0B || n == 0x0C || n == 0x0D
    || n == 0x20 || n == 0xA0 || n == 0x1680
    || (0x2000 <= n <= 0x200A)
    || n == 0x2028 || n == 0x2029 || n == 0x202F || n == 0x205F
    || n == 0x3000 || n == 0xFEFF
  }

  predicate AllWhitespace(s: string) {
    forall k :: 0 <= k < |s| ==> IsWhitespace(s[k])
  }

  // ---------------------------------------------------------------------
  // split / join
  // ---------------------------------------------------------------------

  /** `s.split(sep)`: the maximal separator-free pieces of `s`, in order.
      Like JavaScript, splitting the empty string gives one empty piece. */
  function Split(s: string, sep: char): (parts: seq<string>)
    ensures |parts| >= 1
    ensures forall i :: 0 <= i < |parts| ==> sep !in parts[i]
    ensures |parts| <= |s| + 1
  {
    if |s| == 0 then [""]
    else
      var rest := Split(s[1..], sep);
      if s[0] == sep then [""] + rest
      else [[s[0]] + rest[0]] + rest[1..]
  }

  /** `parts.join(sep)`; the empty array joins to the empty string. */
  function Join(parts: seq<string>, sep: char): string {
    if |parts| == 0 then ""
    else if |parts| == 1 then parts[0]
    else parts[0] + [sep] + Join(parts[1..], sep)
  }

  /** A join starts with the first piece, and it is empty only for no piece
      or a single empty one: between two pieces there is always a separator. */
  lemma JoinEnds(parts: seq<string>, sep: char)
    ensures |parts| >= 1 ==> parts[0] <= Join(parts, sep)
    ensures Join(parts, sep) == "" <==> |parts| == 0 || (|parts| == 1 && parts[0] == "")
  {
  }

  /** Joining the pieces of a split gives back the original string. */
  lemma {:induction false} JoinSplit(s: string, sep: char)
    ensures Join(Split(s, sep), sep) == s
  {
    if |s| > 0 {
      var rest := Split(s[1..], sep);
      JoinSplit(s[1..], sep);
      if s[0] == sep {
        assert Split(s, sep) == [""] + rest;
        assert ([""] + rest)[1..] == rest;
      } else {
        var parts := Split(s, sep);
        assert parts == [[s[0]] + rest[0]] + rest[1..];
        if |rest| == 1 {
          assert Join(parts, sep) == [s[0]] + rest[0];
        } else {
          assert parts[1..] == rest[1..];
          assert Join(rest, sep) == rest[0] + [sep] + Join(rest[1..], sep);
        }
        assert s == [s[0]] + s[1..];
      }
    }
  }

  /** A string without the separator splits into itself alone. */
  lemma {:induction false} SplitNoSeparator(s: string, sep: char)
    requires sep !in s
    ensures Split(s, sep) == [s]
  {
    if |s| > 0 {
      assert sep !in s[1..] by {
        forall k | 0 <= k < |s[1..]| ensures s[1..][k] != sep {
          assert s[1..][k] == s[k + 1];
        }
      }
      SplitNoSeparator(s[1..], sep);
      assert s == [s[0]] + s[1..];
    }
  }

  /** One step of `Split`: the first character either ends the first piece
      (a separator) or is prepended to it. */
  lemma SplitCons(c: char, t: string, sep: char)
    ensures var rest := Split(t, sep);
            Split([c] + t, sep) == if c == sep then [""] + rest else [[c] + rest[0]] + rest[1..]
  {
    assert ([c] + t)[1..] == t;
  }

  /** Splitting distributes over a separator: the pieces of `a + sep + b` are
      the pieces of `a` followed by the pieces of `b`. */
  lemma {:induction false} SplitAround(a: string, sep: char, b: string)
    ensures Split(a + [sep] + b, sep) == Split(a, sep) + Split(b, sep)
  {
    if |a| == 0 {
      assert a + [sep] + b == [sep] + b;
      SplitCons(sep, b, sep);
    } else {
      var c, t := a[0], a[1..];
      assert a == [c] + t;
      assert a + [sep] + b == [c] + (t + [sep] + b);
      SplitAround(t, sep, b);
      SplitConsAppend(c, Split(t, sep), Split(b, sep), sep);
      SplitCons(c, t + [sep] + b, sep);
      SplitCons(c, t, sep);
    }
  }

  /** The step of `SplitAround`: prepending a character distributes over
      the concatenation of two piece lists. */
  lemma SplitConsAppend(c: char, rt: seq<string>, rb: seq<string>, sep: char)
    requires |rt| >= 1
    ensures var rest := rt + rb;
            (if c == sep then [""] + rest else [[c] + rest[0]] + rest[1..])
            == (if c == sep then [""] + rt else [[c] + rt[0]] + rt[1..]) + rb
  {
    var rest := rt + rb;
    if c != sep {
      assert rest[0] == rt[0];
      assert rest[1..] == rt[1..] + rb;
    }
  }

  /** Joining `xs + [y]` appends `y` after one more separator. */
  lemma {:induction false} JoinSnoc(xs: seq<string>, y: string, sep: char)
    ensures Join(xs + [y], sep) == if |xs| == 0 then y else Join(xs, sep) + [sep] + y
  {
    if |xs| == 1 {
      assert xs + [y] == [xs[0], y];
      assert [xs[0], y][1..] == [y];
    } else if |xs| > 1 {
      assert (xs + [y])[1..] == xs[1..] + [y];
      JoinSnoc(xs[1..], y, sep);
    }
  }

  /** Splitting a join of separator-free pieces gives back the pieces. */
  lemma {:induction false} SplitJoin(parts: seq<string>, sep: char)
    requires |parts| >= 1
    requires forall i :: 0 <= i < |parts| ==> sep !in parts[i]
    ensures Split(Join(parts, sep), sep) == parts
  {
    if |parts| == 1 {
      SplitNoSeparator(parts[0], sep);
    } else {
      assert forall i :: 0 <= i < |parts[1..]| ==> parts[1..][i] == parts[i + 1];
      SplitJoin(parts[1..], sep);
      SplitAround(parts[0], sep, Join(parts[1..], sep));
      SplitNoSeparator(parts[0], sep);
      assert parts == [parts[0]] + parts[1..];
    }
  }

  /** The pieces of a split are all empty exactly when the string consists of
      separators only. */
  lemma {:induction false} SplitAllEmpty(s: string, sep: char)
    ensures (forall i :: 0 <= i < |Split(s, sep)| ==> Split(s, sep)[i] == "")
            <==> (forall k :: 0 <= k < |s| ==> s[k] == sep)
  {
    if |s| > 0 {
      SplitAllEmpty(s[1..], sep);
      var rest := Split(s[1..], sep);
      var parts := Split(s, sep);
      if s[0] == sep {
        assert parts == [""] + rest;
        assert forall i :: 0 <= i < |rest| ==> rest[i] == parts[i + 1];
        assert (forall k :: 0 <= k < |s| ==> s[k] == sep)
               <==> (forall k :: 0 <= k < |s[1..]| ==> s[1..][k] == sep) by {
          assert forall k :: 0 <= k < |s[1..]| ==> s[1..][k] == s[k + 1];
        }
      } else {
        assert parts[0] == [s[0]] + rest[0];
      }
    }
  }

  // ---------------------------------------------------------------------
  // trim
  // ---------------------------------------------------------------------

  /** Index of the first non-white-space character (|s| if there is none). */
  function ContentStart(s: string): (i: nat)
    ensures i <= |s|
    ensures forall k :: 0 <= k < i ==> IsWhitespace(s[k])
    ensures i < |s| ==> !IsWhitespace(s[i])
  {
    if |s| == 0 || !IsWhitespace(s[0]) then 0
    else 1 + ContentStart(s[1..])
  }

  /** One past the last non-white-space character (0 if there is none). */
  function ContentEnd(s: string): (j: nat)
    ensures j <= |s|
    ensures forall k :: j <= k < |s| ==> IsWhitespace(s[k])
    ensures j > 0 ==> !IsWhitespace(s[j - 1])
  {
    if |s| == 0 || !IsWhitespace(s[|s| - 1]) then |s|
    else ContentEnd(s[..|s| - 1])
  }

  /** `s.trim()`: `s` without its leading and trailing white space. */
  function Trim(s: string): (r: string)
    ensures |r| <= |s|
    ensures r == "" <==> AllWhitespace(s)
    ensures r != "" ==> !IsWhitespace(r[0]) && !IsWhitespace(r[|r| - 1])
    ensures exists i :: 0 <= i <= |s| - |r| && s[i..i + |r|] == r
                        && AllWhitespace(s[..i]) && AllWhitespace(s[i + |r|..])
  {
    var i := ContentStart(s);
    var j := ContentEnd(s);
    if i < j then
      var r := s[i..j];
      assert AllWhitespace(s[..i]) && AllWhitespace(s[j..]);
      assert s[i..i + |r|] == r && i + |r| == j;
      assert r[0] == s[i] && r[|r| - 1] == s[j - 1];
      assert !IsWhitespace(s[i]);
      r
    else
      assert i == |s|;
      assert AllWhitespace(s);
      assert s[0..0] == "" && s[..0] == "" && s[0..] == s;
      ""
  }

  /** Trimming is determined by the decomposition it finds: white space, a
      middle that neither starts nor ends with white space, white space. */
  lemma {:induction false} TrimOfPadded(lead: string, mid: string, trail: string)
    requires AllWhitespace(lead) && AllWhitespace(trail)
    requires mid != "" ==> !IsWhitespace(mid[0]) && !IsWhitespace(mid[|mid| - 1])
    ensures Trim(lead + mid + trail) == mid
  {
    var s := lead + mid + trail;
    if mid == "" {
      assert AllWhitespace(s) by {
        forall k | 0 <= k < |s| ensures IsWhitespace(s[k]) {
          if k < |lead| { assert s[k] == lead[k]; } else { assert s[k] == trail[k - |lead|]; }
        }
      }
    } else {
      StartOfPadded(lead, mid + trail);
      assert s == lead + (mid + trail);
      EndOfPadded(lead + mid, trail);
      assert (lead + mid)[|lead + mid| - 1] == mid[|mid| - 1];
      assert s[|lead|..|lead| + |mid|] == mid;
    }
  }

  lemma {:induction false} StartOfPadded(lead: string, rest: string)
    requires AllWhitespace(lead)
    requires rest != "" && !IsWhitespace(rest[0])
    ensures ContentStart(lead + rest) == |lead|
  {
    if |lead| > 0 {
      assert (lead + rest)[1..] == lead[1..] + rest;
      assert AllWhitespace(lead[1..]) by {
        forall k | 0 <= k < |lead[1..]| ensures IsWhitespace(lead[1..][k]) {
          assert lead[1..][k] == lead[k + 1];
        }
      }
      StartOfPadded(lead[1..], rest);
    }
  }

  lemma {:induction false} EndOfPadded(body: string, trail: string)
    requires AllWhitespace(trail)
    requires body != "" && !IsWhitespace(body[|body| - 1])
    ensures ContentEnd(body + trail) == |body|
  {
    var s := body + trail;
    if |trail| > 0 {
      assert s[..|s| - 1] == body + trail[..|trail| - 1];
      var shorter := trail[..|trail| - 1];
      assert AllWhitespace(shorter) by {
        forall k | 0 <= k < |shorter| ensures IsWhitespace(shorter[k]) {
          assert shorter[k] == trail[k];
        }
      }
      assert s[|s| - 1] == trail[|trail| - 1];
      EndOfPadded(body, trail[..|trail| - 1]);
    } else {
      assert s == body;
    }
  }

  // ---------------------------------------------------------------------
  // toUpperCase (ASCII)
  // ---------------------------------------------------------------------

  predicate IsLowerAscii(c: char) {
    'a' <= c <= 'z'
  }

  function UpperChar(c: char): char {
    if IsLowerAscii(c) then (c as int - 32) as char else c
  }

  /** `s.toUpperCase()` on ASCII letters: every lower-case letter replaced by
      its capital, every other character kept, length unchanged. */
  function Upper(s: string): (r: string)
    ensures |r| == |s|
    ensures forall k :: 0 <= k < |s| ==> r[k] == UpperChar(s[k])
  {
    if |s| == 0 then "" else [UpperChar(s[0])] + Upper(s[1..])
  }

  /** An upper-cased string has no lower-case ASCII letter left, and
      upper-casing it again changes nothing. */
  lemma UpperIsFinal(s: string)
    ensures forall k :: 0 <= k < |Upper(s)| ==> !IsLowerAscii(Upper(s)[k])
    ensures Upper(Upper(s)) == Upper(s)
  {
  }
}

=== FILE: wrap.dfy ===
/**
  `splitTextIntoLines` of the PDF generator: a greedy word wrapper. The text
  is split on single spaces; each word is appended to the line being built
  while the measured width of the extended line stays strictly below the
  limit, otherwise the line is closed and the word starts the next one.
  Words are never split, so a word wider than the limit stands on a line of
  its own.

  The font measurement is an arbitrary function from strings to widths.
*/
module Wrap {
  import opened Text

  /** Width of a string in the body font at the body size. */
  type Measure = string -> real

  /** The wrapper's loop state: the lines closed so far and the line being
      built (empty when no word has been placed on it). */
  datatype Pending = Pending(lines: seq<string>, current: string)

  /** The words of a text, as `text.split(" ")` yields them. */
  function Words(text: string): seq<string> {
    Split(text, ' ')
  }

  /** One iteration of the word loop: the word joins the line being built
      only when the extended line measures below the limit; otherwise the
      line being built, if any, is closed and the word starts the next one. */
  function Place(width: Measure, maxWidth: real, p: Pending, word: string): (q: Pending)
    ensures q.current == word || (p.current != "" && q.current == p.current + " " + word && width(q.current) < maxWidth)
    ensures q.lines == p.lines || (p.current != "" && q.lines == p.lines + [p.current])
    ensures q.lines != p.lines ==> q.current == word && width(p.current + " " + word) >= maxWidth
    ensures p.current != "" ==> (q.lines == p.lines <==> width(p.current + " " + word) < maxWidth)
    ensures p.current != "" && q.lines == p.lines ==> q.current == p.current + " " + word
  {
    var candidate := if p.current != "" then p.current + " " + word else word;
    if width(candidate) < maxWidth then
      Pending(p.lines, candidate)
    else
      Pending(if p.current != "" then p.lines + [p.current] else p.lines, word)
  }

  /** The loop run over `words`, from the empty state. */
  function PlaceAll(width: Measure, maxWidth: real, words: seq<string>): Pending
    decreases |words|
  {
    if |words| == 0 then Pending([], "")
    else Place(width, maxWidth, PlaceAll(width, maxWidth, words[..|words| - 1]), words[|words| - 1])
  }

  /** After the loop: the line being built is kept if it is not empty. */
  function Flush(p: Pending): seq<string> {
    if p.current != "" then p.lines + [p.current] else p.lines
  }

  // ---------------------------------------------------------------------
  // What a well-formed line is
  // ---------------------------------------------------------------------

  /** Index `j` of `line` ends a word: the line ends there or a space follows. */
  predicate WordEnd(line: string, j: int)
    requires 0 <= j <= |line|
  {
    j == |line| || line[j] == ' '
  }

  /** Every prefix of `line` that ends a word and holds at least two words was
      measured against the limit when its last word was appended, and fit. */
  predicate PrefixesFit(width: Measure, maxWidth: real, line: string) {
    forall j :: 0 <= j <= |line| && WordEnd(line, j) && ' ' in line[..j] ==> width(line[..j]) < maxWidth
  }

  /** A line the wrapper may emit: not empty, every multi-word prefix of it
      fits, and a line without a space is one whole input word. */
  predicate WellBroken(width: Measure, maxWidth: real, words: seq<string>, line: string) {
    && line != ""
    && PrefixesFit(width, maxWidth, line)
    && (' ' !in line ==> line in words)
  }

  /** Words as `split(" ")` produces them: none contains a space. */
  predicate SpaceFree(words: seq<string>) {
    forall i :: 0 <= i < |words| ==> ' ' !in words[i]
  }

  /** The non-empty words of a word sequence, in order. */
  function Solid(ws: seq<string>): seq<string> {
    if |ws| == 0 then []
    else (if ws[0] == "" then [] else [ws[0]]) + Solid(ws[1..])
  }

  /** The words of a sequence of lines, line after line. */
  function WordsOfLines(lines: seq<string>): seq<string> {
    if |lines| == 0 then []
    else WordsOfLines(lines[..|lines| - 1]) + Words(lines[|lines| - 1])
  }

  /** Text with no word at all: empty, or spaces only. */
  predicate Blank(text: string) {
    forall k :: 0 <= k < |text| ==> text[k] == ' '
  }

  /** Text whose words are all non-empty: no leading, trailing or doubled
      spaces, and not empty. */
  predicate WellSpaced(text: string) {
    forall i :: 0 <= i < |Words(text)| ==> Words(text)[i] != ""
  }

  // ---------------------------------------------------------------------
  // splitTextIntoLines
  // ---------------------------------------------------------------------

  /** `splitTextIntoLines(font, text, fontSize, maxWidth)`. */
  function SplitTextIntoLines(width: Measure, text: string, maxWidth: real): (lines: seq<string>)
    ensures |lines| <= |Words(text)|
    ensures forall i :: 0 <= i < |lines| ==> WellBroken(width, maxWidth, Words(text), lines[i])
    ensures Solid(Words(Join(lines, ' '))) == Solid(Words(text))
    ensures lines == [] <==> Blank(text)
  {
    var words := Words(text);
    var p := PlaceAll(width, maxWidth, words);
    PlaceAllShape(width, maxWidth, words);
    PlaceAllKeepsWords(width, maxWidth, words);
    PlaceAllEmptyIff(width, maxWidth, words);
    SplitAllEmpty(text, ' ');
    var lines := Flush(p);
    assert forall i :: 0 <= i < |lines| ==> WellBroken(width, maxWidth, words, lines[i]) by {
      forall i | 0 <= i < |lines| ensures WellBroken(width, maxWidth, words, lines[i]) {
        if i < |p.lines| { assert lines[i] == p.lines[i]; }
      }
    }
    WordsOfFlush(p);
    lines
  }

  // ---------------------------------------------------------------------
  // Loop invariants, one lemma each
  // ---------------------------------------------------------------------

  /** Size, non-emptiness and well-formedness of the lines built so far. */
  ghost predicate Shaped(width: Measure, maxWidth: real, words: seq<string>, p: Pending) {
    && |p.lines| + (if p.current != "" then 1 else 0) <= |words|
    && (forall i :: 0 <= i < |p.lines| ==> WellBroken(width, maxWidth, words, p.lines[i]))
    && PrefixesFit(width, maxWidth, p.current)
    && (p.current != "" && ' ' !in p.current ==> p.current in words)
  }

  /** Extending a line whose prefixes fit by a space and a word keeps all its
      prefixes fitting, provided the extended line itself fits. */
  lemma ExtendKeepsPrefixesFit(width: Measure, maxWidth: real, cur: string, word: string)
    requires cur != "" && ' ' !in word
    requires PrefixesFit(width, maxWidth, cur)
    requires width(cur + " " + word) < maxWidth
    ensures PrefixesFit(width, maxWidth, cur + " " + word)
  {
    var ext := cur + " " + word;
    forall j | |cur| < j < |ext| ensures ext[j] != ' ' {
      assert ext[j] == word[j - |cur| - 1];
    }
    forall j | 0 <= j <= |ext| && WordEnd(ext, j) && ' ' in ext[..j]
      ensures width(ext[..j]) < maxWidth
    {
      if j < |cur| {
        assert ext[..j] == cur[..j];
        assert ext[j] == cur[j];
      } else if j == |cur| {
        assert ext[..j] == cur;
        assert cur[..|cur|] == cur;
      } else if j == |ext| {
        assert ext[..j] == ext;
      }
    }
  }

  lemma NoSpaceFits(width: Measure, maxWidth: real, word: string)
    requires ' ' !in word
    ensures PrefixesFit(width, maxWidth, word)
  {
    forall j | 0 <= j <= |word| ensures ' ' !in word[..j] {
      assert forall k :: 0 <= k < j ==> word[..j][k] == word[k];
    }
  }

  lemma {:induction false} PlaceAllShape(width: Measure, maxWidth: real, words: seq<string>)
    requires SpaceFree(words)
    ensures Shaped(width, maxWidth, words, PlaceAll(width, maxWidth, words))
  {
    if |words| == 0 {
      assert PrefixesFit(width, maxWidth, "") by {
        NoSpaceFits(width, maxWidth, "");
      }
    } else {
      var init := words[..|words| - 1];
      var w := words[|words| - 1];
      assert SpaceFree(init) by { assert forall i :: 0 <= i < |init| ==> init[i] == words[i]; }
      PlaceAllShape(width, maxWidth, init);
      var p := PlaceAll(width, maxWidth, init);
      assert forall x :: x in init ==> x in words;
      var q := Place(width, maxWidth, p, w);
      assert q == PlaceAll(width, maxWidth, words);
      NoSpaceFits(width, maxWidth, w);
      if p.current != "" && width(p.current + " " + w) < maxWidth {
        ExtendKeepsPrefixesFit(width, maxWidth, p.current, w);
        assert ' ' in q.current by { assert q.current[|p.current|] == ' '; }
      }
      assert forall i :: 0 <= i < |q.lines| ==> WellBroken(width, maxWidth, words, q.lines[i]) by {
        forall i | 0 <= i < |q.lines| ensures WellBroken(width, maxWidth, words, q.lines[i]) {
          if i < |p.lines| {
            assert q.lines[i] == p.lines[i];
            assert WellBroken(width, maxWidth, init, p.lines[i]);
          } else {
            assert q.lines[i] == p.current;
          }
        }
      }
    }
  }

  lemma {:induction false} SolidAppend(a: seq<string>, b: seq<string>)
    ensures Solid(a + b) == Solid(a) + Solid(b)
  {
    if |a| == 0 {
      assert a + b == b;
    } else {
      assert (a + b)[0] == a[0];
      assert (a + b)[1..] == a[1..] + b;
      SolidAppend(a[1..], b);
      var head := if a[0] == "" then [] else [a[0]];
      calc {
        Solid(a + b);
        head + Solid(a[1..] + b);
        head + (Solid(a[1..]) + Solid(b));
        (head + Solid(a[1..])) + Solid(b);
        Solid(a) + Solid(b);
      }
    }
  }

  /** The words of joined lines are the words of the lines, line after line. */
  lemma {:induction false} WordsOfJoin(lines: seq<string>)
    requires |lines| >= 1
    ensures Words(Join(lines, ' ')) == WordsOfLines(lines)
  {
    var init := lines[..|lines| - 1];
    var last := lines[|lines| - 1];
    assert lines == init + [last];
    JoinSnoc(init, last, ' ');
    if |init| == 0 {
      assert WordsOfLines(lines) == WordsOfLines([]) + Words(last);
    } else {
      WordsOfJoin(init);
      SplitAround(Join(init, ' '), ' ', last);
    }
  }

  /** One placement appends the word to the non-empty words held by the
      closed lines and the line being built. */
  lemma PlaceKeepsWords(width: Measure, maxWidth: real, p: Pending, w: string)
    requires ' ' !in w
    ensures var q := Place(width, maxWidth, p, w);
            Solid(WordsOfLines(q.lines)) + Solid(Words(q.current))
            == Solid(WordsOfLines(p.lines)) + Solid(Words(p.current)) + Solid([w])
  {
    var q := Place(width, maxWidth, p, w);
    var cur := p.current;
    SplitNoSeparator(w, ' ');
    assert Solid(Words("")) == [];
    if cur != "" && width(cur + " " + w) < maxWidth {
      assert q == Pending(p.lines, cur + " " + w);
      SplitAround(cur, ' ', w);
      SolidAppend(Words(cur), [w]);
    } else if cur != "" {
      assert q == Pending(p.lines + [cur], w);
      assert q.lines[..|q.lines| - 1] == p.lines;
      SolidAppend(WordsOfLines(p.lines), Words(cur));
    } else {
      assert q == Pending(p.lines, w);
    }
  }

  /** Every non-empty word placed so far is in the closed lines or in the line
      being built, in input order. */
  lemma {:induction false} PlaceAllKeepsWords(width: Measure, maxWidth: real, words: seq<string>)
    requires SpaceFree(words)
    ensures var p := PlaceAll(width, maxWidth, words);
            Solid(WordsOfLines(p.lines)) + Solid(Words(p.current)) == Solid(words)
  {
    if |words| > 0 {
      var init := words[..|words| - 1];
      var w := words[|words| - 1];
      assert words == init + [w];
      assert SpaceFree(init) by { assert forall i :: 0 <= i < |init| ==> init[i] == words[i]; }
      PlaceAllKeepsWords(width, maxWidth, init);
      PlaceKeepsWords(width, maxWidth, PlaceAll(width, maxWidth, init), w);
      SolidAppend(init, [w]);
    }
  }

  /** The wrapper emits nothing exactly when every word is empty. */
  lemma {:induction false} PlaceAllEmptyIff(width: Measure, maxWidth: real, words: seq<string>)
    ensures Flush(PlaceAll(width, maxWidth, words)) == [] <==> forall i :: 0 <= i < |words| ==> words[i] == ""
  {
    if |words| > 0 {
      var init := words[..|words| - 1];
      var w := words[|words| - 1];
      PlaceAllEmptyIff(width, maxWidth, init);
      var p := PlaceAll(width, maxWidth, init);
      var q := Place(width, maxWidth, p, w);
      if forall i :: 0 <= i < |words| ==> words[i] == "" {
        assert forall i :: 0 <= i < |init| ==> init[i] == "" by {
          assert forall i :: 0 <= i < |init| ==> init[i] == words[i];
        }
      } else if w == "" {
        assert !(forall i :: 0 <= i < |init| ==> init[i] == "") by {
          var i :| 0 <= i < |words| && words[i] != "";
          assert i < |init| && init[i] == words[i];
        }
        if p.lines == [] {
          assert p.current != "";
        }
      }
    }
  }

  lemma WordsOfFlush(p: Pending)
    ensures Solid(Words(Join(Flush(p), ' '))) == Solid(WordsOfLines(p.lines)) + Solid(Words(p.current))
  {
    var lines := Flush(p);
    assert Solid(Words("")) == [];
    if |lines| == 0 {
    } else {
      WordsOfJoin(lines);
      if p.current != "" {
        assert lines[..|lines| - 1] == p.lines;
        SolidAppend(WordsOfLines(p.lines), Words(p.current));
      }
    }
  }

  // ---------------------------------------------------------------------
  // Text without leading, trailing or doubled spaces
  // ---------------------------------------------------------------------

  /** Each line but the last was closed because its next word did not fit:
      appending a space and the first word of the following line reaches the
      limit. */
  ghost predicate GreedyBreaks(width: Measure, maxWidth: real, lines: seq<string>) {
    forall i :: 0 <= i < |lines| - 1 ==> width(lines[i] + " " + Words(lines[i + 1])[0]) >= maxWidth
  }

  /** One placement keeps the lines, read together with the line being built,
      joining to the words placed so far. */
  lemma PlaceExtendsJoin(width: Measure, maxWidth: real, p: Pending, w: string)
    requires p.current != ""
    ensures var q := Place(width, maxWidth, p, w);
            Join(q.lines + [q.current], ' ') == Join(p.lines + [p.current], ' ') + " " + w
  {
    var q := Place(width, maxWidth, p, w);
    if width(p.current + " " + w) < maxWidth {
      JoinSnoc(p.lines, p.current, ' ');
      JoinSnoc(p.lines, p.current + " " + w, ' ');
    } else {
      assert q.lines + [q.current] == (p.lines + [p.current]) + [w];
      JoinSnoc(p.lines + [p.current], w, ' ');
    }
  }

  /** One placement of a non-empty word keeps every line break greedy. */
  lemma PlaceKeepsGreedy(width: Measure, maxWidth: real, p: Pending, w: string)
    requires p.current != "" && w != "" && ' ' !in w
    requires GreedyBreaks(width, maxWidth, p.lines + [p.current])
    ensures var q := Place(width, maxWidth, p, w);
            q.current != "" && GreedyBreaks(width, maxWidth, q.lines + [q.current])
  {
    var q := Place(width, maxWidth, p, w);
    var before := p.lines + [p.current];
    var after := q.lines + [q.current];
    if width(p.current + " " + w) < maxWidth {
      SplitAround(p.current, ' ', w);
      assert Words(p.current + " " + w)[0] == Words(p.current)[0];
      forall i | 0 <= i < |after| - 1
        ensures width(after[i] + " " + Words(after[i + 1])[0]) >= maxWidth
      {
        assert after[i] == before[i];
        assert width(before[i] + " " + Words(before[i + 1])[0]) >= maxWidth;
        if i + 1 < |p.lines| {
          assert after[i + 1] == before[i + 1];
        } else {
          assert after[i + 1] == p.current + " " + w && before[i + 1] == p.current;
        }
      }
    } else {
      SplitNoSeparator(w, ' ');
      assert after == before + [w];
      forall i | 0 <= i < |after| - 1
        ensures width(after[i] + " " + Words(after[i + 1])[0]) >= maxWidth
      {
        if i < |before| - 1 {
          assert after[i] == before[i] && after[i + 1] == before[i + 1];
        }
      }
    }
  }

  lemma {:induction false} PlaceAllWellSpaced(width: Measure, maxWidth: real, words: seq<string>)
    requires |words| >= 1 && SpaceFree(words)
    requires forall i :: 0 <= i < |words| ==> words[i] != ""
    ensures var p := PlaceAll(width, maxWidth, words);
            && p.current != ""
            && Join(p.lines + [p.current], ' ') == Join(words, ' ')
            && GreedyBreaks(width, maxWidth, p.lines + [p.current])
  {
    var init := words[..|words| - 1];
    var w := words[|words| - 1];
    assert words == init + [w];
    JoinSnoc(init, w, ' ');
    if |init| == 0 {
      assert PlaceAll(width, maxWidth, init) == Pending([], "");
    } else {
      assert forall i :: 0 <= i < |init| ==> init[i] == words[i];
      PlaceAllWellSpaced(width, maxWidth, init);
      var p := PlaceAll(width, maxWidth, init);
      PlaceExtendsJoin(width, maxWidth, p, w);
      PlaceKeepsGreedy(width, maxWidth, p, w);
    }
  }

  /** For text without leading, trailing or doubled spaces the wrapper is
      exact: joining the lines with single spaces gives the text back, and
      every line break is forced by the next word not fitting. */
  lemma WellSpacedWrap(width: Measure, text: string, maxWidth: real)
    requires WellSpaced(text)
    ensures var lines := SplitTextIntoLines(width, text, maxWidth);
            && |lines| >= 1
            && Join(lines, ' ') == text
            && GreedyBreaks(width, maxWidth, lines)
  {
    var words := Words(text);
    PlaceAllWellSpaced(width, maxWidth, words);
    JoinSplit(text, ' ');
  }

  /** A line holding two or more words is strictly narrower than the limit;
      only a line made of a single word can be wider, and then it is exactly
      one word of the text. */
  lemma LineWidthBound(width: Measure, text: string, maxWidth: real, i: nat)
    requires i < |SplitTextIntoLines(width, text, maxWidth)|
    ensures var line := SplitTextIntoLines(width, text, maxWidth)[i];
            && (' ' in line ==> width(line) < maxWidth)
            && (' ' !in line ==> line in Words(text) && line != "")
  {
    var line := SplitTextIntoLines(width, text, maxWidth)[i];
    assert WellBroken(width, maxWidth, Words(text), line);
    assert line[..|line|] == line;
    assert WordEnd(line, |line|);
  }
  // ---------------------------------------------------------------------
  // Why a line ends, for any text
  // ---------------------------------------------------------------------

  /** `line` was closed because the word that came after it did not fit:
      either that word was empty (a doubled or trailing space) and even the
      line with one more space reached the limit, or it is the first word of
      `next` and the line extended by it reached the limit. */
  ghost predicate BreakBefore(width: Measure, maxWidth: real, line: string, next: string) {
    width(line + " ") >= maxWidth || width(line + " " + Words(next)[0]) >= maxWidth
  }

  /** Every line but the last was closed by a word that did not fit after it. */
  ghost predicate Breaks(width: Measure, maxWidth: real, lines: seq<string>) {
    forall i :: 0 <= i < |lines| - 1 ==> BreakBefore(width, maxWidth, lines[i], lines[i + 1])
  }

  /** The loop invariant behind `Breaks`: the closed lines are broken, and
      the last of them was closed by the word the line being built starts
      with (or by an empty word, when the line being built starts later). */
  ghost predicate Broken(width: Measure, maxWidth: real, p: Pending) {
    && Breaks(width, maxWidth, p.lines)
    && (|p.lines| > 0 ==> BreakBefore(width, maxWidth, p.lines[|p.lines| - 1], p.current))
  }

  lemma PlaceKeepsBroken(width: Measure, maxWidth: real, p: Pending, w: string)
    requires ' ' !in w
    requires Broken(width, maxWidth, p)
    ensures Broken(width, maxWidth, Place(width, maxWidth, p, w))
  {
    var q := Place(width, maxWidth, p, w);
    SplitNoSeparator(w, ' ');
    if p.current != "" && width(p.current + " " + w) < maxWidth {
      SplitAround(p.current, ' ', w);
      assert Words(q.current)[0] == Words(p.current)[0];
    } else if p.current != "" {
      assert q.lines == p.lines + [p.current] && q.current == w;
      forall i | 0 <= i < |q.lines| - 1
        ensures BreakBefore(width, maxWidth, q.lines[i], q.lines[i + 1])
      {
        if i < |p.lines| - 1 {
          assert q.lines[i] == p.lines[i] && q.lines[i + 1] == p.lines[i + 1];
        } else {
          assert q.lines[i] == p.lines[|p.lines| - 1] && q.lines[i + 1] == p.current;
        }
      }
    } else if |p.lines| > 0 {
      var last := p.lines[|p.lines| - 1];
      assert Words("") == [""];
      assert last + " " + "" == last + " ";
    }
  }

  lemma {:induction false} PlaceAllBroken(width: Measure, maxWidth: real, words: seq<string>)
    requires SpaceFree(words)
    ensures Broken(width, maxWidth, PlaceAll(width, maxWidth, words))
  {
    if |words| > 0 {
      var init := words[..|words| - 1];
      assert SpaceFree(init) by { assert forall i :: 0 <= i < |init| ==> init[i] == words[i]; }
      PlaceAllBroken(width, maxWidth, init);
      PlaceKeepsBroken(width, maxWidth, PlaceAll(width, maxWidth, init), words[|words| - 1]);
    }
  }

  /** For any text, every line but the last was closed because the next
      word did not fit after it: the line extended by a space and the first
      word of the following line reaches the limit, or the word was empty and
      the line extended by a space alone reaches it. */
  lemma LineBreaks(width: Measure, text: string, maxWidth: real)
    ensures Breaks(width, maxWidth, SplitTextIntoLines(width, text, maxWidth))
  {
    var p := PlaceAll(width, maxWidth, Words(text));
    PlaceAllBroken(width, maxWidth, Words(text));
    var lines := SplitTextIntoLines(width, text, maxWidth);
    assert lines == Flush(p);
    if p.current != "" {
      forall i | 0 <= i < |lines| - 1
        ensures BreakBefore(width, maxWidth, lines[i], lines[i + 1])
      {
        if i < |p.lines| - 1 {
          assert lines[i] == p.lines[i] && lines[i + 1] == p.lines[i + 1];
        } else {
          assert lines[i] == p.lines[|p.lines| - 1] && lines[i + 1] == p.current;
        }
      }
    }
  }

  // ---------------------------------------------------------------------
  // The lines pinned down by word positions, for any text
  // ---------------------------------------------------------------------

  /** The words at positions `lo` up to `hi` of `ws` are all empty: the
      doubled, leading or trailing spaces the wrapper skips. */
  predicate Gap(ws: seq<string>, lo: int, hi: int) {
    0 <= lo <= hi <= |ws| && forall c :: lo <= c < hi ==> ws[c] == ""
  }

  /** `line` holds the words at positions `s` up to `e`: it starts with a
      non-empty word, is those words joined by single spaces, and every
      extension of it by one more of them measured below the limit. */
  predicate Run(width: Measure, maxWidth: real, ws: seq<string>, line: string, s: int, e: int) {
    && 0 <= s < e <= |ws|
    && ws[s] != ""
    && line == Join(ws[s..e], ' ')
    && forall j :: s + 1 < j <= e ==> width(Join(ws[s..j], ' ')) < maxWidth
  }

  /** A declarative account of the greedy wrapper: line `k` is the run of
      words from `starts[k]` to `ends[k]`; only empty words lie outside the
      runs; and the word right after each run, when there is one, did not
      fit after it. */
  ghost predicate Wrapped(width: Measure, maxWidth: real, ws: seq<string>, lines: seq<string>, starts: seq<int>, ends: seq<int>) {
    && |starts| == |lines| && |ends| == |lines|
    && (forall k {:trigger lines[k]} :: 0 <= k < |lines| ==> Run(width, maxWidth, ws, lines[k], starts[k], ends[k]))
    && (forall k :: 0 <= k < |lines| && 0 <= ends[k] < |ws| ==> width(lines[k] + " " + ws[ends[k]]) >= maxWidth)
    && Gap(ws, 0, if |lines| == 0 then |ws| else starts[0])
    && (forall k {:trigger ends[k]} :: 0 <= k < |lines| - 1 ==> Gap(ws, ends[k], starts[k + 1]))
    && (|lines| > 0 ==> Gap(ws, ends[|lines| - 1], |ws|))
  }

  /** The index where the next run may start: after the last closed run. */
  function Base(ends: seq<int>): int {
    if |ends| == 0 then 0 else ends[|ends| - 1]
  }

  /** Each line is the run from `starts[k]` to `ends[k]`, ended before `m`. */
  ghost predicate RunsBefore(width: Measure, maxWidth: real, ws: seq<string>, m: int, lines: seq<string>, starts: seq<int>, ends: seq<int>)
    requires |starts| == |lines| && |ends| == |lines|
  {
    forall k :: 0 <= k < |lines| ==> Run(width, maxWidth, ws, lines[k], starts[k], ends[k]) && ends[k] < m
  }

  /** Each line was closed by the word after it, which did not fit. */
  ghost predicate Overflowing(width: Measure, maxWidth: real, ws: seq<string>, lines: seq<string>, ends: seq<int>)
    requires |ends| == |lines|
  {
    forall k :: 0 <= k < |lines| ==> 0 <= ends[k] < |ws| && width(lines[k] + " " + ws[ends[k]]) >= maxWidth
  }

  /** Only empty words come before the first run and between two runs. */
  predicate Gapped(ws: seq<string>, starts: seq<int>, ends: seq<int>)
    requires |starts| == |ends|
  {
    && (|starts| > 0 ==> Gap(ws, 0, starts[0]))
    && (forall k :: 0 <= k < |starts| - 1 ==> Gap(ws, ends[k], starts[k + 1]))
  }

  /** The closed lines after the first `m` words, in the terms of `Wrapped`:
      runs that ended before `m`, each closed by the word after it, with only
      empty words before and between them. */
  ghost predicate Closed(width: Measure, maxWidth: real, ws: seq<string>, m: int, lines: seq<string>, starts: seq<int>, ends: seq<int>) {
    && m <= |ws|
    && |starts| == |lines| && |ends| == |lines|
    && RunsBefore(width, maxWidth, ws, m, lines, starts, ends)
    && Overflowing(width, maxWidth, ws, lines, ends)
    && Gapped(ws, starts, ends)
  }

  /** The loop state after the first `m` words: the closed lines as above;
      the line being built is the run from `cs` to `m`, or nothing when only
      empty words came since the last closed line. */
  ghost predicate Cut(width: Measure, maxWidth: real, ws: seq<string>, m: int, p: Pending, starts: seq<int>, ends: seq<int>, cs: int) {
    && Closed(width, maxWidth, ws, m, p.lines, starts, ends)
    && (p.current != "" ==> Gap(ws, Base(ends), cs) && Run(width, maxWidth, ws, p.current, cs, m))
    && (p.current == "" ==> Gap(ws, Base(ends), m))
  }

  /** Extending a run by the next word, when the extended line fits. */
  lemma RunExtend(width: Measure, maxWidth: real, ws: seq<string>, line: string, s: int, e: int)
    requires 0 < e <= |ws| && Run(width, maxWidth, ws, line, s, e - 1)
    requires width(line + " " + ws[e - 1]) < maxWidth
    ensures Run(width, maxWidth, ws, line + " " + ws[e - 1], s, e)
  {
    JoinExtend(ws, line, s, e - 1);
    assert ws[s..e - 1 + 1] == ws[s..e];
  }

  /** A single non-empty word is a run. */
  lemma RunSingle(width: Measure, maxWidth: real, ws: seq<string>, e: int)
    requires 0 < e <= |ws| && ws[e - 1] != ""
    ensures Run(width, maxWidth, ws, ws[e - 1], e - 1, e)
  {
    assert ws[e - 1..e] == [ws[e - 1]];
  }

  /** Appending a run ended before `m` keeps every run ended before `m`. */
  lemma RunsAppend(width: Measure, maxWidth: real, ws: seq<string>, m: int, lines: seq<string>, starts: seq<int>, ends: seq<int>, line: string, cs: int, e: int)
    requires |starts| == |lines| && |ends| == |lines|
    requires RunsBefore(width, maxWidth, ws, m, lines, starts, ends)
    requires Run(width, maxWidth, ws, line, cs, e) && e < m
    ensures RunsBefore(width, maxWidth, ws, m, lines + [line], starts + [cs], ends + [e])
  {
    var l', s', e' := lines + [line], starts + [cs], ends + [e];
    forall k | 0 <= k < |l'| ensures Run(width, maxWidth, ws, l'[k], s'[k], e'[k]) && e'[k] < m {
      if k < |lines| {
        assert l'[k] == lines[k] && s'[k] == starts[k] && e'[k] == ends[k];
      }
    }
  }

  /** Appending a line closed by the word after it keeps every line so. */
  lemma OverflowingAppend(width: Measure, maxWidth: real, ws: seq<string>, lines: seq<string>, ends: seq<int>, line: string, e: int)
    requires |ends| == |lines|
    requires Overflowing(width, maxWidth, ws, lines, ends)
    requires 0 <= e < |ws| && width(line + " " + ws[e]) >= maxWidth
    ensures Overflowing(width, maxWidth, ws, lines + [line], ends + [e])
  {
    var l', e' := lines + [line], ends + [e];
    forall k | 0 <= k < |l'| ensures 0 <= e'[k] < |ws| && width(l'[k] + " " + ws[e'[k]]) >= maxWidth {
      if k < |lines| {
        assert l'[k] == lines[k] && e'[k] == ends[k];
      }
    }
  }

  /** Appending a run after only empty words keeps the gaps empty. */
  lemma GappedAppend(ws: seq<string>, starts: seq<int>, ends: seq<int>, cs: int, e: int)
    requires |starts| == |ends|
    requires Gapped(ws, starts, ends) && Gap(ws, Base(ends), cs)
    ensures Gapped(ws, starts + [cs], ends + [e])
  {
    var s', e' := starts + [cs], ends + [e];
    var n := |starts|;
    forall k | 0 <= k < n ensures Gap(ws, e'[k], s'[k + 1]) {
      if k < n - 1 {
        assert e'[k] == ends[k] && s'[k + 1] == starts[k + 1];
      } else {
        assert e'[k] == Base(ends) && s'[k + 1] == cs;
      }
    }
    assert s'[0] == if n == 0 then cs else starts[0];
  }

  /** Closing the run from `cs` to `m - 1`, because the word at `m - 1` did
      not fit after it, keeps the closed lines in the terms of `Wrapped`. */
  lemma CloseRun(width: Measure, maxWidth: real, ws: seq<string>, m: int, lines: seq<string>, starts: seq<int>, ends: seq<int>, line: string, cs: int)
    requires 0 < m <= |ws|
    requires Closed(width, maxWidth, ws, m - 1, lines, starts, ends)
    requires Gap(ws, Base(ends), cs) && Run(width, maxWidth, ws, line, cs, m - 1)
    requires width(line + " " + ws[m - 1]) >= maxWidth
    ensures Closed(width, maxWidth, ws, m, lines + [line], starts + [cs], ends + [m - 1])
    ensures Base(ends + [m - 1]) == m - 1
  {
    ClosedLater(width, maxWidth, ws, m, lines, starts, ends);
    RunsAppend(width, maxWidth, ws, m, lines, starts, ends, line, cs, m - 1);
    OverflowingAppend(width, maxWidth, ws, lines, ends, line, m - 1);
    GappedAppend(ws, starts, ends, cs, m - 1);
  }

  /** Closed lines stay closed when one more word has been read. */
  lemma ClosedLater(width: Measure, maxWidth: real, ws: seq<string>, m: int, lines: seq<string>, starts: seq<int>, ends: seq<int>)
    requires 0 < m <= |ws|
    requires Closed(width, maxWidth, ws, m - 1, lines, starts, ends)
    ensures Closed(width, maxWidth, ws, m, lines, starts, ends)
  {
  }

  /** One placement of the word at position `m - 1` keeps the cut. */
  lemma PlaceKeepsCut(width: Measure, maxWidth: real, ws: seq<string>, m: int, p: Pending, starts: seq<int>, ends: seq<int>, cs: int)
    returns (starts': seq<int>, ends': seq<int>, cs': int)
    requires 0 < m <= |ws|
    requires Cut(width, maxWidth, ws, m - 1, p, starts, ends, cs)
    ensures Cut(width, maxWidth, ws, m, Place(width, maxWidth, p, ws[m - 1]), starts', ends', cs')
  {
    var i := m - 1;
    var w := ws[i];
    var q := Place(width, maxWidth, p, w);
    if w != "" {
      RunSingle(width, maxWidth, ws, m);
    }
    if p.current != "" && width(p.current + " " + w) < maxWidth {
      starts', ends', cs' := starts, ends, cs;
      ClosedLater(width, maxWidth, ws, m, p.lines, starts, ends);
      RunExtend(width, maxWidth, ws, p.current, cs, m);
      assert q == Pending(p.lines, p.current + " " + w);
    } else if p.current != "" {
      starts', ends', cs' := starts + [cs], ends + [i], i;
      CloseRun(width, maxWidth, ws, m, p.lines, starts, ends, p.current, cs);
      assert q == Pending(p.lines + [p.current], w);
    } else {
      starts', ends', cs' := starts, ends, i;
      ClosedLater(width, maxWidth, ws, m, p.lines, starts, ends);
      assert q == Pending(p.lines, w);
    }
  }

  /** The loop over the first `m` words is the loop over the first `m - 1`
      followed by the placement of word `m - 1`. */
  lemma PlaceAllPrefix(width: Measure, maxWidth: real, ws: seq<string>, m: int)
    requires 0 < m <= |ws|
    ensures PlaceAll(width, maxWidth, ws[..m]) == Place(width, maxWidth, PlaceAll(width, maxWidth, ws[..m - 1]), ws[m - 1])
  {
    assert ws[..m][..m - 1] == ws[..m - 1];
    assert ws[..m][m - 1] == ws[m - 1];
  }

  /** The loop over the first `m` words keeps the cut. */
  lemma {:induction false} PlaceAllCut(width: Measure, maxWidth: real, ws: seq<string>, m: int)
    returns (starts: seq<int>, ends: seq<int>, cs: int)
    requires 0 <= m <= |ws|
    ensures Cut(width, maxWidth, ws, m, PlaceAll(width, maxWidth, ws[..m]), starts, ends, cs)
    decreases m
  {
    if m == 0 {
      starts, ends, cs := [], [], 0;
      assert PlaceAll(width, maxWidth, ws[..0]) == Pending([], "");
      assert Closed(width, maxWidth, ws, 0, [], starts, ends);
    } else {
      var s0, e0, c0 := PlaceAllCut(width, maxWidth, ws, m - 1);
      var p := PlaceAll(width, maxWidth, ws[..m - 1]);
      PlaceAllPrefix(width, maxWidth, ws, m);
      starts, ends, cs := PlaceKeepsCut(width, maxWidth, ws, m, p, s0, e0, c0);
    }
  }

  /** At the end of the words, closed lines with nothing after them fit the
      account of `Wrapped`. */
  lemma ClosedWrapped(width: Measure, maxWidth: real, ws: seq<string>, lines: seq<string>, starts: seq<int>, ends: seq<int>)
    requires Closed(width, maxWidth, ws, |ws|, lines, starts, ends)
    requires Gap(ws, Base(ends), |ws|)
    ensures Wrapped(width, maxWidth, ws, lines, starts, ends)
  {
  }

  /** At the end of the words, the line being built is the last run. */
  lemma FinishRun(width: Measure, maxWidth: real, ws: seq<string>, lines: seq<string>, starts: seq<int>, ends: seq<int>, line: string, cs: int)
    requires Closed(width, maxWidth, ws, |ws|, lines, starts, ends)
    requires Gap(ws, Base(ends), cs) && Run(width, maxWidth, ws, line, cs, |ws|)
    ensures Wrapped(width, maxWidth, ws, lines + [line], starts + [cs], ends + [|ws|])
  {
    var n := |lines|;
    var l', s', e' := lines + [line], starts + [cs], ends + [|ws|];
    forall k | 0 <= k < n + 1 ensures Run(width, maxWidth, ws, l'[k], s'[k], e'[k]) {
      if k < n {
        assert l'[k] == lines[k] && s'[k] == starts[k] && e'[k] == ends[k];
      }
    }
    forall k | 0 <= k < n + 1 && e'[k] < |ws| ensures width(l'[k] + " " + ws[e'[k]]) >= maxWidth {
      assert l'[k] == lines[k] && e'[k] == ends[k];
    }
    forall k | 0 <= k < n ensures Gap(ws, e'[k], s'[k + 1]) {
      if k < n - 1 {
        assert e'[k] == ends[k] && s'[k + 1] == starts[k + 1];
      } else {
        assert e'[k] == Base(ends) && s'[k + 1] == cs;
      }
    }
    assert s'[0] == if n == 0 then cs else starts[0];
  }

  /** The lines of `splitTextIntoLines` are runs of the text's words, cut
      where the account of `Wrapped` says. */
  lemma LineCuts(width: Measure, text: string, maxWidth: real) returns (starts: seq<int>, ends: seq<int>)
    ensures Wrapped(width, maxWidth, Words(text), SplitTextIntoLines(width, text, maxWidth), starts, ends)
  {
    var ws := Words(text);
    assert ws[..|ws|] == ws;
    var s0, e0, cs := PlaceAllCut(width, maxWidth, ws, |ws|);
    var p := PlaceAll(width, maxWidth, ws);
    assert SplitTextIntoLines(width, text, maxWidth) == Flush(p);
    if p.current != "" {
      starts, ends := s0 + [cs], e0 + [|ws|];
      FinishRun(width, maxWidth, ws, p.lines, s0, e0, p.current, cs);
    } else {
      starts, ends := s0, e0;
      ClosedWrapped(width, maxWidth, ws, p.lines, s0, e0);
    }
  }

  /** Two runs that start at the first non-empty word after `lo` start at
      the same word. */
  lemma FirstWord(ws: seq<string>, lo: int, a: int, b: int)
    requires Gap(ws, lo, a) && a < |ws| && ws[a] != ""
    requires Gap(ws, lo, b) && b < |ws| && ws[b] != ""
    ensures a == b
  {
  }

  /** Two runs from the same word, each closed by the word after it not
      fitting, end at the same word: had one ended earlier, the longer one
      shows that the word after the shorter one fitted. */
  lemma SameEnd(width: Measure, maxWidth: real, ws: seq<string>, a: string, b: string, s: int, ea: int, eb: int)
    requires Run(width, maxWidth, ws, a, s, ea) && Run(width, maxWidth, ws, b, s, eb)
    requires ea < |ws| ==> width(a + " " + ws[ea]) >= maxWidth
    requires eb < |ws| ==> width(b + " " + ws[eb]) >= maxWidth
    ensures ea == eb
  {
    if ea < eb {
      JoinExtend(ws, a, s, ea);
    } else if eb < ea {
      JoinExtend(ws, b, s, eb);
    }
  }

  /** What the account of `Wrapped` says about line `k`: it is a run, the
      word after it did not fit beside it, and only empty words lie between
      the end of the line before it (or the first word) and its start. */
  lemma WrappedLine(width: Measure, maxWidth: real, ws: seq<string>,
                    lines: seq<string>, starts: seq<int>, ends: seq<int>, k: nat)
    requires Wrapped(width, maxWidth, ws, lines, starts, ends) && k < |lines|
    ensures Run(width, maxWidth, ws, lines[k], starts[k], ends[k])
    ensures ends[k] < |ws| ==> width(lines[k] + " " + ws[ends[k]]) >= maxWidth
    ensures k == 0 ==> Gap(ws, 0, starts[k])
    ensures k > 0 ==> Gap(ws, ends[k - 1], starts[k])
  {
    if k > 0 {
      assert Gap(ws, ends[k - 1], starts[k - 1 + 1]);
    }
  }

  /** Two lines, each a run starting at the first non-empty word after
      `lo` and closed by the word after it not fitting, are the same run. */
  lemma SameLine(width: Measure, maxWidth: real, ws: seq<string>, lo: int,
                 a: string, sa: int, ea: int, b: string, sb: int, eb: int)
    requires Gap(ws, lo, sa) && Run(width, maxWidth, ws, a, sa, ea)
    requires ea < |ws| ==> width(a + " " + ws[ea]) >= maxWidth
    requires Gap(ws, lo, sb) && Run(width, maxWidth, ws, b, sb, eb)
    requires eb < |ws| ==> width(b + " " + ws[eb]) >= maxWidth
    ensures sa == sb && ea == eb
  {
    FirstWord(ws, lo, sa, sb);
    SameEnd(width, maxWidth, ws, a, b, sa, ea, eb);
  }

  /** Two line lists that both fit the account of `Wrapped` over the same
      words start and end their `k`-th lines at the same positions. */
  lemma {:induction false} SameCut(width: Measure, maxWidth: real, ws: seq<string>,
                                   l1: seq<string>, s1: seq<int>, e1: seq<int>,
                                   l2: seq<string>, s2: seq<int>, e2: seq<int>, k: nat)
    requires Wrapped(width, maxWidth, ws, l1, s1, e1) && Wrapped(width, maxWidth, ws, l2, s2, e2)
    requires k < |l1| && k < |l2|
    ensures s1[k] == s2[k] && e1[k] == e2[k]
    decreases k
  {
    WrappedLine(width, maxWidth, ws, l1, s1, e1, k);
    WrappedLine(width, maxWidth, ws, l2, s2, e2, k);
    if k > 0 {
      SameCut(width, maxWidth, ws, l1, s1, e1, l2, s2, e2, k - 1);
      SameLine(width, maxWidth, ws, e1[k - 1], l1[k], s1[k], e1[k], l2[k], s2[k], e2[k]);
    } else {
      SameLine(width, maxWidth, ws, 0, l1[k], s1[k], e1[k], l2[k], s2[k], e2[k]);
    }
  }

  /** The words of a run joined with the word after them: the run's line, a
      space, and that word. */
  lemma JoinExtend(ws: seq<string>, a: string, s: int, e: int)
    requires 0 <= s < e < |ws| && a == Join(ws[s..e], ' ')
    ensures Join(ws[s..e + 1], ' ') == a + " " + ws[e]
  {
    assert ws[s..e + 1] == ws[s..e] + [ws[e]];
    JoinSnoc(ws[s..e], ws[e], ' ');
  }

  /** A line list that fits the account of `Wrapped` has at least as many
      lines as any other that fits it: after the last of its runs only empty
      words are left, so no further run can start. */
  lemma NoFewerLines(width: Measure, maxWidth: real, ws: seq<string>,
                     l1: seq<string>, s1: seq<int>, e1: seq<int>,
                     l2: seq<string>, s2: seq<int>, e2: seq<int>)
    requires Wrapped(width, maxWidth, ws, l1, s1, e1) && Wrapped(width, maxWidth, ws, l2, s2, e2)
    ensures |l1| >= |l2|
  {
    var n := |l1|;
    if n < |l2| {
      WrappedLine(width, maxWidth, ws, l2, s2, e2, n);
    }
    if 0 < n <= |l2| {
      SameCut(width, maxWidth, ws, l1, s1, e1, l2, s2, e2, n - 1);
    }
  }

  /** The account of `Wrapped` fixes the lines: two line lists that both fit
      it over the same words are equal. */
  lemma WrappedUnique(width: Measure, maxWidth: real, ws: seq<string>,
                      l1: seq<string>, s1: seq<int>, e1: seq<int>,
                      l2: seq<string>, s2: seq<int>, e2: seq<int>)
    requires Wrapped(width, maxWidth, ws, l1, s1, e1) && Wrapped(width, maxWidth, ws, l2, s2, e2)
    ensures l1 == l2
  {
    NoFewerLines(width, maxWidth, ws, l1, s1, e1, l2, s2, e2);
    NoFewerLines(width, maxWidth, ws, l2, s2, e2, l1, s1, e1);
    forall k | 0 <= k < |l1| ensures l1[k] == l2[k] {
      SameCut(width, maxWidth, ws, l1, s1, e1, l2, s2, e2, k);
      assert Run(width, maxWidth, ws, l1[k], s1[k], e1[k]);
      assert Run(width, maxWidth, ws, l2[k], s2[k], e2[k]);
    }
  }

  /** `splitTextIntoLines` returns exactly the line lists that fit the
      account of `Wrapped` over the words of the text. */
  lemma WrapExact(width: Measure, text: string, maxWidth: real, lines: seq<string>)
    ensures lines == SplitTextIntoLines(width, text, maxWidth)
            <==> exists starts, ends :: Wrapped(width, maxWidth, Words(text), lines, starts, ends)
  {
    var s0, e0 := LineCuts(width, text, maxWidth);
    if exists starts, ends :: Wrapped(width, maxWidth, Words(text), lines, starts, ends) {
      var starts, ends :| Wrapped(width, maxWidth, Words(text), lines, starts, ends);
      WrappedUnique(width, maxWidth, Words(text), lines, starts, ends, SplitTextIntoLines(width, text, maxWidth), s0, e0);
    }
  }
}
